=== FILE: README.md ===
# Google Forms answer report, modelled in Dafny

`gen_html_from_google_forms.py` reads a Google Forms answer export, counts the
answers to every question, and prints an HTML report: one numbered section per
question, with a pie chart, a table of answer counts and shares, and a list of
the rare answers folded into "その他" ("Other"). Questions where every answer
was given only once are treated as free text and listed instead.

This project models the core of that script as pure Dafny functions over
immutable data and proves what the report promises:

- `Tallies`: a question's answer counts (`Tally`, an ordered list of
  `Entry(answer, count)` with positive counts, as the ordered dictionaries of
  the script), the histogram update `d[v] += 1 / d[v] = 1` (`Bump`, `BumpAll`)
  and `max()` (`MaxCount`).
- `Strings`: Python's `str.split(sep)` and `re.sub` with a literal pattern
  (`Split`, `ReplaceAll`), as leftmost, non-overlapping scans.
- `Aggregate`: the re-tally of multi-select answers in
  `convert_from_answer_to_dict`, as a function (`Retally`) and as the loop of
  the script (`RetallyQuestion`, `ConvertAnswers`).
- `Ordering`: the stable descending sort of line 127 (`SortByCountDesc`) and
  the count-threshold filters used to describe the table.
- `Decimal`, `Percent`: `get_percentage`, with Python's printing of `t/100`.
- `FreeText`: `format_text`, the markdown-like rewriting of free answers.
- `Report`: `gen_html`, one `Fragment` per `print` call; the `NOT_OTHERS`
  exemption, the "Other" folding, section layout and question numbering.

The report is a `Report(fragments, error)`: the fragments printed, and the
exception that ended the run early, if any (`max()` of an empty tally).
`Report.Text` gives the text each fragment prints. A `Heading` prints as
`<h2>Q<n>. question</h2>`. An `Html` fragment prints its text as is. `Prologue`
prints the doctype lines around a stylesheet that is passed in. `PieChart(slices)`
prints whatever a chart function passed in makes of the labels and sizes
handed to the plot.

## Model

| member | source | states |
|---|---|---|
| Strings.Split | gen_html_from_google_forms.py:96 | `str.split` always yields at least one piece |
| Strings.SplitJoinRoundTrip | gen_html_from_google_forms.py:96 | joining the pieces of `s.split(sep)` with `sep` gives back `s` |
| Strings.SingletonSplitIff | gen_html_from_google_forms.py:96-98 | a key splits into one piece exactly when it does not contain the delimiter, and that piece is the key itself |
| Strings.SplitPiecesAvoidSep | gen_html_from_google_forms.py:96 | no piece of a split contains the delimiter |
| Strings.SplitHeadIsPrefix | gen_html_from_google_forms.py:96 | the first piece is a prefix of the input |
| Strings.SplitAtSeparator | gen_html_from_google_forms.py:96 | a first piece that does not contain the delimiter, followed by the delimiter, splits off whole |
| Strings.ReplaceAllIsJoinOfSplit | gen_html_from_google_forms.py:191-193 | an unanchored literal `re.sub` is the same as splitting on the pattern and joining with the replacement |
| Strings.ReplaceAllAbsent | gen_html_from_google_forms.py:191-193 | a string with no match is left unchanged |
| Strings.StripPrefix | gen_html_from_google_forms.py:190-191 | an anchored `re.sub('^p', '', s)` drops one leading `p` when `s` starts with it, and otherwise returns `s` unchanged |
| Strings.ReplaceAllCleanTail | gen_html_from_google_forms.py:191-195 | a tail in which no match can start or finish is copied through after the replaced head |
| Strings.ReplaceAllSkip | gen_html_from_google_forms.py:191-193 | a stretch that never holds the pattern's first character is copied through unchanged |
| Tallies.Bump | gen_html_from_google_forms.py:101-104 | the histogram update raises the count of `v` by one and no other, adds one to the total, and keeps the order of existing keys |
| Tallies.BumpKeys | gen_html_from_google_forms.py:101-104 | the update adds `v` as a key if it was new, and no other key |
| Tallies.BumpDistinct | gen_html_from_google_forms.py:101-104 | the update keeps the keys unique |
| Tallies.BumpAll | gen_html_from_google_forms.py:100-104 | counting a list of values adds each value's multiplicity to its count, makes exactly the values keys, and adds the list length to the total |
| Tallies.BumpAllAppend | gen_html_from_google_forms.py:95-104 | counting two lists one after the other is counting their concatenation |
| Tallies.MaxCount | gen_html_from_google_forms.py:139 | `max(ans.values())` is at least every count and equals one of them |
| Tallies.MaxOneIffAllOnce | gen_html_from_google_forms.py:138-140 | the maximum count is one exactly when every answer was given once |
| Aggregate.Retally | gen_html_from_google_forms.py:92-106 | a question with no multi-valued key keeps its tally; otherwise the new tally counts each piece once per occurrence in the split of a multi-valued key, whatever that key's count, has exactly those pieces as keys, and totals their number |
| Aggregate.MultiValuedIff | gen_html_from_google_forms.py:96-98 | a key is split exactly when it contains ", " |
| Aggregate.RetallyDistinct | gen_html_from_google_forms.py:92-106 | the re-tally keeps the keys unique |
| Aggregate.RetallyAnswersAreAtomic | gen_html_from_google_forms.py:92-106 | after a re-tally no key contains ", ", and every old key that is not also a piece is gone |
| Aggregate.RetallyOrder | gen_html_from_google_forms.py:100-104 | the new keys appear in the order of their first occurrence among the pieces |
| Aggregate.RetallyExample | gen_html_from_google_forms.py:92-106 | "a, b" once and "a" twice re-tally to `a` and `b` once each: the plain answers are dropped once some key splits |
| Aggregate.BumpPieces | gen_html_from_google_forms.py:100-104 | the inner loop counts the pieces of one key into `tmp` |
| Aggregate.RetallyQuestion | gen_html_from_google_forms.py:94-106 | the loop over one question's keys computes `Retally` |
| Aggregate.ConvertAnswers | gen_html_from_google_forms.py:92-108 | every question keeps its name and position and gets its re-tallied answers |
| Ordering.SortByCountDescSpec | gen_html_from_google_forms.py:127 | the sort orders counts descending, is a permutation of the tally with the same length and total, and keeps answers of equal count in their original order |
| Ordering.SortLength | gen_html_from_google_forms.py:127 | the sort keeps the number of entries |
| Ordering.SortTotal | gen_html_from_google_forms.py:127 | the sort keeps the total of the counts |
| Ordering.SortAnswers | gen_html_from_google_forms.py:127 | the sort keeps the same keys, still unique |
| Ordering.SortSortedIsIdentity | gen_html_from_google_forms.py:127 | an already sorted tally comes out unchanged |
| Ordering.SortAtLeast | gen_html_from_google_forms.py:127 | filtering by a count threshold commutes with the sort |
| Ordering.SortedSplitsAtThreshold | gen_html_from_google_forms.py:127 | a sorted tally is its entries at or above a threshold followed by those below it |
| Ordering.BelowTwoIsOnce | gen_html_from_google_forms.py:145 | the entries below two are exactly those counted once |
| Decimal.NatToString | gen_html_from_google_forms.py:133 | a number prints as a non-empty run of decimal digits with no leading zero |
| Decimal.ParseNatToString | gen_html_from_google_forms.py:133 | the printed question number parses back to the number |
| Decimal.NatToStringInjective | gen_html_from_google_forms.py:133 | different question numbers print differently |
| Decimal.LeadingNatToString | gen_html_from_google_forms.py:149 | a count printed in front of non-digit text reads back as the count |
| Percent.Hundredths | gen_html_from_google_forms.py:182 | `math.floor(cnt / total * 10000)` is the largest `t` with `t * total <= cnt * 10000` |
| Percent.HundredthsToString | gen_html_from_google_forms.py:182 | `t/100` prints in Python's shortest form: at least three characters, one digit after the point, or two digits of which the last is not zero |
| Percent.HundredthsRoundTrip | gen_html_from_google_forms.py:182 | the printed `t/100`, followed by "%", reads back as `t` hundredths |
| Percent.Percentage | gen_html_from_google_forms.py:181-183 | a zero total raises `ZeroDivisionError`; otherwise the text ends with "%" |
| Percent.PercentageRoundTrip | gen_html_from_google_forms.py:181-183 | the printed percentage reads back as the floor of the share in hundredths of a percent |
| Percent.PercentageBounds | gen_html_from_google_forms.py:181-183 | the share of a count within its total is at most 100.00% |
| Percent.PercentageMonotone | gen_html_from_google_forms.py:181-183 | a larger count never gets a smaller share |
| Percent.PercentageOfTotal | gen_html_from_google_forms.py:181-183 | the whole total prints as "100.0%" |
| Percent.PercentageExamples | gen_html_from_google_forms.py:181-183 | 2 of 3 prints "66.66%", 1 of 3 "33.33%", 1 of 2 "50.0%", and a zero total raises |
| FreeText.Rewrite | gen_html_from_google_forms.py:190-193 | a segment with no "・", "-", "#" or "<" in it passes the four substitutions unchanged |
| FreeText.Item | gen_html_from_google_forms.py:194-195 | a segment prints nothing exactly when its rewrite is empty, and otherwise text that opens with `<li>` and closes with `</li>` and a newline |
| FreeText.ItemsShape | gen_html_from_google_forms.py:189-197 | the concatenated items are empty exactly when every segment vanishes, and otherwise start with `<li>` and end with `</li>` and a newline |
| FreeText.FormatTextShape | gen_html_from_google_forms.py:187-197 | `format_text` returns nothing exactly when every " ・" segment vanishes, and otherwise a run of list items |
| FreeText.FormatTextEmpty | gen_html_from_google_forms.py:187-197 | an empty answer formats to nothing |
| FreeText.FormatTextSingleSegment | gen_html_from_google_forms.py:189 | an answer without " ・" is formatted as one item |
| FreeText.FormatTextSegments | gen_html_from_google_forms.py:189-196 | a first segment that does not contain " ・" becomes its own item, followed by the formatting of the rest |
| FreeText.TwoItems | gen_html_from_google_forms.py:189-196 | an answer of two segments formats to their two items, in order |
| FreeText.ThreeItems | gen_html_from_google_forms.py:189-196 | an answer of three segments formats to their three items, in order |
| FreeText.ThreeSegments | gen_html_from_google_forms.py:189-196 | plain text after a "・", after "## " and after "-" in three segments prints as three plain items |
| FreeText.ItemPlain | gen_html_from_google_forms.py:194-195 | a plain segment becomes `<li>segment</li>` and a newline |
| FreeText.ItemStripsOneMarker | gen_html_from_google_forms.py:190-191 | one leading "・", one leading "-", or both in that order are dropped |
| FreeText.ItemKeepsSecondBullet | gen_html_from_google_forms.py:190 | only the first leading "・" is dropped |
| FreeText.ItemKeepsSecondDash | gen_html_from_google_forms.py:191 | only the first leading "-" is dropped |
| FreeText.ItemHeading | gen_html_from_google_forms.py:192-195 | a "## " marker turns into the item's own `<li>` |
| FreeText.ItemLineBreak | gen_html_from_google_forms.py:191 | "- " inside a segment becomes `<br>` |
| FreeText.FormatTextExample | gen_html_from_google_forms.py:187-197 | "・First point ・## Second ・- detail" formats to three items, the last one " detail" |
| Report.Text | gen_html_from_google_forms.py:133-175 | a heading prints a text that reads back as its own number and question, and an `Html` fragment prints its text as is |
| Report.HeadingRoundTrip | gen_html_from_google_forms.py:133 | `<h2>Q<n>. q</h2>` parses back to the number `n` and the question `q` |
| Report.HeadingTextInjective | gen_html_from_google_forms.py:133 | two headings print the same text only when both number and question agree |
| Report.HeadingsPrintDistinct | gen_html_from_google_forms.py:119-177 | the headings of a report all print different texts, whatever the stylesheet and chart |
| Report.RowCells | gen_html_from_google_forms.py:149-151 | a table row starts with the answer cell, its count cell reads back as the count, and it ends with the share and the row end |
| Report.RowEndsRow | gen_html_from_google_forms.py:149-151 | every table row ends with `</td></tr>` and a newline |
| Report.RowsAppend | gen_html_from_google_forms.py:143-151 | the table text of two runs of rows is the one run's text followed by the other's |
| Report.RowsLines | gen_html_from_google_forms.py:149-151 | the table text is empty exactly when there are no rows, and otherwise ends with a row end |
| Report.StepBalance | gen_html_from_google_forms.py:143-158 | one iteration adds the same amount to chart and to table plus folded list; only a folded entry joins the folded list, and only a kept entry becomes a row |
| Report.ClassifyFromBalance | gen_html_from_google_forms.py:143-158 | the loop keeps the chart total equal to the table total plus the number of folded answers, and adds at most one row or folded answer per entry |
| Report.ClassifyFromFolded | gen_html_from_google_forms.py:152-153 | the loop appends to the folded list exactly the answers given once of a question outside `NOT_OTHERS`, in order |
| Report.ClassifyFromRows | gen_html_from_google_forms.py:145-151 | the loop only appends rows, each an entry of the tally given more than once or exempt by `NOT_OTHERS` |
| Report.ClassifyBalance | gen_html_from_google_forms.py:143-158 | on any tally the chart totals the table plus one per folded answer, the folded answers are those given once outside `NOT_OTHERS`, in order, and every row is a kept entry of the tally |
| Report.SectionBody | gen_html_from_google_forms.py:162-175 | after the heading, a section prints no other heading |
| Report.FreeTextHasNoChart | gen_html_from_google_forms.py:173-175 | a free-text section draws no chart |
| Report.RenderFrom | gen_html_from_google_forms.py:121-177 | the report of a run of questions ends early only for a question with no answers, and the error is labelled with that question |
| Report.GenHtml | gen_html_from_google_forms.py:112-177 | the report starts with the prologue, and ends early only with `max()`'s error for a question with no answers |
| Report.FreeTexts | gen_html_from_google_forms.py:171-175 | each listed answer is printed through `format_text`, in order |
| Report.RenderQuestion | gen_html_from_google_forms.py:125-175 | an empty tally raises before anything is printed; otherwise the section starts with its `Q<n>.` heading and has no other heading |
| Report.ClassifyAllKept | gen_html_from_google_forms.py:145-151 | answers that keep their row and are new to the chart each add one table row and one slice of their own count |
| Report.ClassifyAllFolded | gen_html_from_google_forms.py:152-158 | answers that are folded each add one unit to the "その他" slice and join the folded list, in order |
| Report.ClassifySorted | gen_html_from_google_forms.py:143-158 | on a sorted tally with unique answers, the leading entries at or above the threshold become rows and slices, and every later entry adds one unit to "その他" and is listed; the `a not in plot_ans` guard never skips an entry |
| Report.PlotConservesTotal | gen_html_from_google_forms.py:143-158 | the pie-chart slices add up to the question's total |
| Report.TableRowsAreKeptEntries | gen_html_from_google_forms.py:143-151 | the table lists the answers given more than once in sorted order, or every answer for a question in `NOT_OTHERS` |
| Report.OthersAreSingleAnswers | gen_html_from_google_forms.py:143-158 | the folded answers are those given once, in data order; a question in `NOT_OTHERS` folds nothing |
| Report.OtherSliceMerges | gen_html_from_google_forms.py:146-158 | the "その他" slice holds a literal "その他" answer's own count plus one per folded answer |
| Report.TabulatedLayout | gen_html_from_google_forms.py:161-172 | a tabulated section prints heading, chart, table header, rows with shares of the total, table end, then the folded answers under their own heading when there are any |
| Report.FreeTextOnlyIff | gen_html_from_google_forms.py:138-140 | a question is free text exactly when every answer was given once |
| Report.FreeTextSection | gen_html_from_google_forms.py:173-175 | a free-text section prints its heading and every answer formatted, in data order |
| Report.ChartIffRepeatedAnswer | gen_html_from_google_forms.py:162-163 | a section draws a chart exactly when some answer was given more than once |
| Report.SectionHeadings | gen_html_from_google_forms.py:133-175 | an answered section prints exactly one heading, its own |
| Report.RenderFromHeadings | gen_html_from_google_forms.py:121-177 | from any counter on, the printed headings number the answered questions consecutively, and the error is that of the first question with no answers |
| Report.GenHtmlNumbering | gen_html_from_google_forms.py:112-177 | the report starts with the prologue; sections are numbered 1, 2, ... in data order without gaps, the timestamp column taking no number; the first question with no answers ends the report with `max()`'s error |
| Report.QuestionsSkipTimestamp | gen_html_from_google_forms.py:122-123 | the timestamp column is never reported |
| Report.FoldingExample | gen_html_from_google_forms.py:143-172 | with `x` once and `y` twice, the section holds a chart of `y` and "その他", one table row for `y` with its share of three, and `x` under the "Other" heading |
| Report.ExemptExample | gen_html_from_google_forms.py:145 | for "所属部署", an answer given once keeps its own row and nothing is folded |

## Left out

- Reading the Excel file and `value_counts().to_dict()` (lines 88-90) are I/O and pandas. The model starts from the per-question tallies they return, with positive counts in descending order of count.
- Non-string cells: `str(a)` on a number, and `format_text` failing on numeric keys, are not modelled. Every answer is a string.
- `plot_to_base64` and `get_graph_font` are drawing and platform code. A chart is the fragment `PieChart(slices)`, whose slices are the labels and sizes handed to the plot. `Report.Text` takes the drawing as a function parameter.
- `stylesheet()` is a fixed block of CSS. `Report.Text` takes it as a parameter and prints it between the doctype lines of lines 114-116.
- The `main` entry point, `sys.argv` and the newline that `print` adds are I/O.
- The script prints no closing `</HTML>`, so neither does the model.
- Percent.Hundredths: floating-point rounding is not modelled. `cnt / total * 10000` is taken as the exact quotient, so in rare cases the float result can differ by one hundredth. Python's exponent form for very large floats is not modelled either.
- The dictionary `ans` that `convert_from_answer_to_dict` builds (line 90) and returns to `gen_html` is modelled as a sequence of columns. The script rebinds `ans[q]` while iterating over it (line 106); `Aggregate.ConvertAnswers` returns a new sequence with each question's re-tally at the same position.

## Notes

- In the leading "・- detail" case, the code drops the leading "-" before it looks for "- ", so no `<br>` is printed. The model follows the code (`FreeText.FormatTextExample`).
- `EmptyMaxError(question)` records which question's `max()` raised. Python's `ValueError` itself does not name the question; the label is the model's.
- A question whose tally is empty makes `max()` raise before its heading is printed. The sections already printed stay printed; that is the `error` of the report.

=== FILE: aggregate.dfy ===
/** The re-tally of `convert_from_answer_to_dict`
    (gen_html_from_google_forms.py:92-106), starting from the ordered
    `{cell: count}` dictionaries that `value_counts().to_dict()` returns. */
module Aggregate {
  import opened Strings
  import opened Tallies

  /** Multi-select answers are stored in one cell joined by this delimiter. */
  const MultiSep: string := ", "

  /** A key that `str(a).split(", ")` cuts into two or more pieces. */
  predicate IsMultiValued(answer: string)
  {
    |Split(answer, MultiSep)| != 1
  }

  /** The pieces one key contributes: all of its split pieces if it is
      multi-valued, none otherwise. Its own count plays no part. */
  function KeyPieces(answer: string): seq<string>
  {
    if IsMultiValued(answer) then Split(answer, MultiSep) else []
  }

  /** Every piece contributed by the keys of `t`, in key order. */
  function Pieces(t: Tally): seq<string>
  {
    if |t| == 0 then [] else KeyPieces(t[0].answer) + Pieces(t[1..])
  }

  /** Some key of the question was split, so its tally gets replaced. */
  predicate AnySplit(t: Tally)
  {
    exists i :: 0 <= i < |t| && IsMultiValued(t[i].answer)
  }

  /** The tally a question ends up with: unchanged when no key splits;
      otherwise rebuilt from the pieces of the multi-valued keys only, each
      piece counting once per occurrence in the split of a multi-valued key,
      whatever that key's count. */
  function Retally(t: Tally): (r: Tally)
    ensures !AnySplit(t) ==> r == t
    ensures AnySplit(t) ==> forall a :: CountOf(r, a) == multiset(Pieces(t))[a]
    ensures AnySplit(t) ==> forall a :: a in Answers(r) <==> a in Pieces(t)
    ensures AnySplit(t) ==> Total(r) == |Pieces(t)|
  {
    if AnySplit(t) then BumpAll([], Pieces(t)) else t
  }

  lemma {:induction false} PiecesAppend(a: Tally, b: Tally)
    ensures Pieces(a + b) == Pieces(a) + Pieces(b)
    decreases |a|
  {
    if |a| == 0 {
      assert a + b == b;
    } else {
      assert (a + b)[1..] == a[1..] + b;
      PiecesAppend(a[1..], b);
    }
  }

  /** A key is multi-valued exactly when it contains the delimiter. */
  lemma MultiValuedIff(answer: string)
    ensures IsMultiValued(answer) <==> Contains(answer, MultiSep)
  {
    SingletonSplitIff(answer, MultiSep);
  }

  /** No answer of a rebuilt tally contains the delimiter. */
  lemma {:induction false} PiecesAvoidSeparator(t: Tally)
    ensures forall k :: 0 <= k < |Pieces(t)| ==> !Contains(Pieces(t)[k], MultiSep)
    decreases |t|
  {
    if |t| > 0 {
      SplitPiecesAvoidSep(t[0].answer, MultiSep);
      PiecesAvoidSeparator(t[1..]);
    }
  }

  /** Keys are unique after the re-tally, whether or not it rebuilt. */
  lemma RetallyDistinct(t: Tally)
    requires Distinct(t)
    ensures Distinct(Retally(t))
  {
    if AnySplit(t) {
      BumpAllDistinct([], Pieces(t));
    }
  }

  /** After a rebuild, no answer still contains `", "`; in particular every
      multi-valued key and every single-valued key that is not also a piece
      has disappeared. */
  lemma RetallyAnswersAreAtomic(t: Tally)
    requires AnySplit(t)
    ensures forall a :: a in Answers(Retally(t)) ==> !Contains(a, MultiSep)
    ensures forall i :: 0 <= i < |t| && t[i].answer !in Pieces(t) ==>
              t[i].answer !in Answers(Retally(t))
  {
    PiecesAvoidSeparator(t);
  }

  /** The keys of a histogram are its values in order of first occurrence. */
  function FirstOccurrences(seen: seq<string>, vs: seq<string>): seq<string>
    decreases |vs|
  {
    if |vs| == 0 then seen
    else FirstOccurrences(if vs[0] in seen then seen else seen + [vs[0]], vs[1..])
  }

  lemma {:induction false} AnswersOfBump(t: Tally, v: string)
    ensures Answers(Bump(t, v)) == if v in Answers(t) then Answers(t) else Answers(t) + [v]
    decreases |t|
  {
    if |t| > 0 {
      assert Answers(t) == [t[0].answer] + Answers(t[1..]);
      if t[0].answer != v {
        AnswersOfBump(t[1..], v);
      }
    }
  }

  lemma {:induction false} AnswersOfBumpAll(t: Tally, vs: seq<string>)
    ensures Answers(BumpAll(t, vs)) == FirstOccurrences(Answers(t), vs)
    decreases |vs|
  {
    if |vs| > 0 {
      AnswersOfBump(t, vs[0]);
      AnswersOfBumpAll(Bump(t, vs[0]), vs[1..]);
    }
  }

  /** A rebuilt tally lists its answers in the order the pieces first occur. */
  lemma RetallyOrder(t: Tally)
    requires AnySplit(t)
    ensures Answers(Retally(t)) == FirstOccurrences([], Pieces(t))
  {
    AnswersOfBumpAll([], Pieces(t));
  }

  /** Lines 100-104: bump every piece of one split key into `tmp`. */
  method BumpPieces(tmp: Tally, line: seq<string>) returns (r: Tally)
    ensures r == BumpAll(tmp, line)
  {
    r := tmp;
    var j := 0;
    while j < |line|
      invariant j <= |line|
      invariant r == BumpAll(tmp, line[..j])
    {
      assert line[..j + 1] == line[..j] + [line[j]];
      BumpAllAppend(tmp, line[..j], [line[j]]);
      r := Bump(r, line[j]);
      j := j + 1;
    }
    assert line[..j] == line;
  }

  /** Lines 94-106 for one question: scan its keys, skip those that do not
      split, and let the shared `tmp` dict replace the tally as soon as one
      key splits. */
  method RetallyQuestion(t: Tally) returns (r: Tally)
    ensures r == Retally(t)
  {
    var tmp: Tally := [];
    var replaced := false;
    var i := 0;
    while i < |t|
      invariant i <= |t|
      invariant tmp == BumpAll([], Pieces(t[..i]))
      invariant replaced <==> AnySplit(t[..i])
    {
      var line := Split(t[i].answer, MultiSep);
      PrefixStep(t, i);
      if |line| != 1 {
        BumpAllAppend([], Pieces(t[..i]), line);
        tmp := BumpPieces(tmp, line);
        replaced := true;
      } else {
        ghost var before := Pieces(t[..i]);
        assert before + [] == before;
        assert Pieces(t[..i + 1]) == before;
      }
      i := i + 1;
    }
    assert t[..i] == t;
    r := if replaced then tmp else t;
  }

  /** How the loop's view of the keys grows by one key. */
  lemma PrefixStep(t: Tally, i: nat)
    requires i < |t|
    ensures Pieces(t[..i + 1]) == Pieces(t[..i]) + KeyPieces(t[i].answer)
    ensures AnySplit(t[..i + 1]) <==> AnySplit(t[..i]) || IsMultiValued(t[i].answer)
  {
    assert t[..i + 1] == t[..i] + [t[i]];
    PiecesAppend(t[..i], [t[i]]);
    assert Pieces([t[i]]) == KeyPieces(t[i].answer);
    if IsMultiValued(t[i].answer) {
      assert IsMultiValued(t[..i + 1][i].answer);
    }
    if AnySplit(t[..i + 1]) && !IsMultiValued(t[i].answer) {
      var k :| 0 <= k < i + 1 && IsMultiValued(t[..i + 1][k].answer);
      assert k < i && t[..i + 1][k] == t[..i][k];
    }
    if AnySplit(t[..i]) {
      var k :| 0 <= k < i && IsMultiValued(t[..i][k].answer);
      assert t[..i + 1][k] == t[..i][k];
    }
  }

  /** Lines 92-106: re-tally every question, keeping question order. */
  method ConvertAnswers(data: seq<Column>) returns (r: seq<Column>)
    ensures |r| == |data|
    ensures forall k :: 0 <= k < |data| ==> r[k].question == data[k].question
    ensures forall k :: 0 <= k < |data| ==> r[k].tally == Retally(data[k].tally)
  {
    r := [];
    var q := 0;
    while q < |data|
      invariant q <= |data| && |r| == q
      invariant forall k :: 0 <= k < q ==> r[k].question == data[k].question
      invariant forall k :: 0 <= k < q ==> r[k].tally == Retally(data[k].tally)
    {
      var tally := RetallyQuestion(data[q].tally);
      r := r + [Column(data[q].question, tally)];
      q := q + 1;
    }
  }

  /** A key without the delimiter contributes no pieces. */
  lemma AtomicKey(a: string)
    requires Avoids(a, ' ')
    ensures Split(a, MultiSep) == [a] && KeyPieces(a) == []
  {
    AvoidsNotContains(a, MultiSep, 1);
    SingletonSplitIff(a, MultiSep);
  }

  /** Answers "a, b" once and "a" twice re-tally to `a` and `b` once each:
      the multi-selection is split, and the two plain "a" answers are lost
      once any key of the question splits. */
  lemma RetallyExample(t: Tally, a: string, b: string)
    requires Avoids(a, ' ') && Avoids(b, ' ') && a != b
    requires t == [Entry(a + MultiSep + b, 1), Entry(a, 2)]
    ensures Retally(t) == [Entry(a, 1), Entry(b, 1)]
  {
    AvoidsNotContains(a, MultiSep, 1);
    SplitAtSeparator(a, MultiSep, b);
    AtomicKey(a);
    AtomicKey(b);
    assert KeyPieces(t[0].answer) == [a, b];
    assert Pieces(t[1..]) == [];
    assert Pieces(t) == [a, b];
    assert AnySplit(t);
    assert Bump([Entry(a, 1)], b) == [Entry(a, 1)] + Bump([], b);
    assert BumpAll([], [a, b]) == BumpAll(Bump([], a), [b]);
  }
}

=== FILE: decimal.dfy ===
/** Decimal rendering of natural numbers, as Python's `str(n)` and the
    f-string `{n}` produce it, with the parser that inverts it. */
module Decimal {
  import opened Results

  predicate IsDigit(c: char)
  {
    '0' <= c <= '9'
  }

  predicate AllDigits(s: string)
  {
    forall i :: 0 <= i < |s| ==> IsDigit(s[i])
  }

  function DigitChar(d: nat): (c: char)
    requires d < 10
    ensures IsDigit(c) && c as int == '0' as int + d
  {
    ('0' as int + d) as char
  }

  function DigitValue(c: char): (d: nat)
    requires IsDigit(c)
    ensures d < 10 && DigitChar(d) == c
  {
    c as int - '0' as int
  }

  /** `str(n)`: the shortest decimal spelling of `n`. */
  function NatToString(n: nat): (r: string)
    ensures |r| >= 1 && AllDigits(r)
    ensures |r| > 1 ==> r[0] != '0'
    decreases n
  {
    if n < 10 then [DigitChar(n)] else NatToString(n / 10) + [DigitChar(n % 10)]
  }

  /** The number denoted by a run of decimal digits (most significant first). */
  function DigitsValue(s: string): nat
    requires AllDigits(s)
  {
    if |s| == 0 then 0 else 10 * DigitsValue(s[..|s| - 1]) + DigitValue(s[|s| - 1])
  }

  /** `int(s)` restricted to plain non-empty digit strings. */
  function ParseNat(s: string): Option<nat>
  {
    if |s| > 0 && AllDigits(s) then Some(DigitsValue(s)) else None
  }

  /** Rendering a number and parsing it back gives the number. */
  lemma {:induction false} ParseNatToString(n: nat)
    ensures ParseNat(NatToString(n)) == Some(n)
    decreases n
  {
    var s := NatToString(n);
    if n < 10 {
      assert s == [DigitChar(n)];
      assert s[..|s| - 1] == "";
      assert DigitsValue(s) == DigitValue(DigitChar(n));
    } else {
      ParseNatToString(n / 10);
      assert s[..|s| - 1] == NatToString(n / 10);
    }
  }

  /** Distinct numbers have distinct spellings. */
  lemma NatToStringInjective(m: nat, n: nat)
    requires NatToString(m) == NatToString(n)
    ensures m == n
  {
    ParseNatToString(m);
    ParseNatToString(n);
  }

  /** The length of the run of digits `s` opens with. */
  function DigitRun(s: string): (n: nat)
    ensures n <= |s| && AllDigits(s[..n])
    ensures n < |s| ==> !IsDigit(s[n])
    decreases |s|
  {
    if |s| == 0 || !IsDigit(s[0]) then 0
    else
      var m := DigitRun(s[1..]);
      assert s[..1 + m] == [s[0]] + s[1..][..m];
      1 + m
  }

  /** The number a text opens with, read up to its first non-digit. */
  function LeadingNat(s: string): Option<nat>
  {
    var n := DigitRun(s);
    if n == 0 then None else Some(DigitsValue(s[..n]))
  }

  /** A run of digits ends where a non-digit follows it. */
  lemma DigitRunOf(a: string, x: string)
    requires AllDigits(a) && |x| > 0 && !IsDigit(x[0])
    ensures DigitRun(a + x) == |a|
  {
    assert (a + x)[|a|] == x[0];
    assert forall k :: 0 <= k < |a| ==> (a + x)[k] == a[k];
  }

  /** A printed number followed by a non-digit reads back as the number, so
      the text after it is determined too. */
  lemma LeadingNatToString(n: nat, x: string)
    requires |x| > 0 && !IsDigit(x[0])
    ensures LeadingNat(NatToString(n) + x) == Some(n)
  {
    var d := NatToString(n);
    DigitRunOf(d, x);
    assert (d + x)[..|d|] == d;
    ParseNatToString(n);
  }
}

=== FILE: freetext.dfy ===
/** `format_text` (gen_html_from_google_forms.py:187-197): turns the
    bullet-and-markdown habits of free answers into HTML list items. */
module FreeText {
  import opened Strings

  /** Bullet points inside one answer are separated by this delimiter. */
  const SegmentSep: string := " ・"
  const Bullet: string := "・"
  const Dash: string := "-"
  const DashSpace: string := "- "
  const HeadingMark: string := "## "
  const LineBreak: string := "<br>"
  const ItemOpen: string := "<li>"
  const ItemClose: string := "</li>\n"
  const DoubleOpen: string := "<li><li>"

  /** Lines 190-193: drop one leading bullet, then one leading dash, turn
      every remaining dash-space into a line break and every heading mark
      into an item opening, and delete every doubled item opening. */
  function Rewrite(seg: string): (r: string)
    ensures Plain(seg) ==> r == seg
  {
    PlainIdle(seg);
    var a := StripPrefix(seg, Bullet);
    var b := ReplaceAll(StripPrefix(a, Dash), DashSpace, LineBreak);
    var c := ReplaceAll(b, HeadingMark, ItemOpen);
    ReplaceAll(c, DoubleOpen, "")
  }

  /** Lines 194-195: a segment that rewrites to nothing produces nothing;
      any other is wrapped as one list item, a doubled opening collapsed. */
  function Item(seg: string): (r: string)
    ensures r == "" <==> Rewrite(seg) == ""
    ensures r == "" || IsItem(r)
  {
    var a := Rewrite(seg);
    WrapIsItem(a);
    if a == "" then "" else ReplaceAll(ItemOpen + a + ItemClose, DoubleOpen, ItemOpen)
  }

  /** Every segment rewrites to nothing. */
  predicate AllVanish(segs: seq<string>)
  {
    forall i :: 0 <= i < |segs| ==> Rewrite(segs[i]) == ""
  }

  /** The items of the segments, in order. */
  function Items(segs: seq<string>): string
  {
    if |segs| == 0 then "" else Item(segs[0]) + Items(segs[1..])
  }

  /** `format_text(intext)`: one item per `" ・"`-segment that does not
      rewrite to nothing. */
  function FormatText(s: string): string
  {
    Items(Split(s, SegmentSep))
  }

  /** The items of some segments are empty exactly when every segment
      rewrites to nothing, and otherwise open with `<li>` and close with
      `</li>` and a newline. */
  lemma {:induction false} ItemsShape(segs: seq<string>)
    ensures Items(segs) == "" <==> AllVanish(segs)
    ensures Items(segs) == "" || IsItem(Items(segs))
    decreases |segs|
  {
    if |segs| > 0 {
      ItemsShape(segs[1..]);
      ConcatItems(Item(segs[0]), Items(segs[1..]));
      assert AllVanish(segs) <==> Rewrite(segs[0]) == "" && AllVanish(segs[1..]) by {
        if AllVanish(segs[1..]) && Rewrite(segs[0]) == "" {
          forall i | 0 <= i < |segs|
            ensures Rewrite(segs[i]) == ""
          {
            if i > 0 {
              assert segs[i] == segs[1..][i - 1];
            }
          }
        }
        if AllVanish(segs) {
          forall i | 0 <= i < |segs| - 1
            ensures Rewrite(segs[1..][i]) == ""
          {
            assert segs[1..][i] == segs[i + 1];
          }
        }
      }
    }
  }

  /** The output is empty exactly when every `" ・"`-segment rewrites to
      nothing; otherwise it opens with `<li>` and closes with `</li>` and a
      newline. */
  lemma FormatTextShape(s: string)
    ensures FormatText(s) == "" <==> AllVanish(Split(s, SegmentSep))
    ensures FormatText(s) == "" || IsItem(FormatText(s))
  {
    ItemsShape(Split(s, SegmentSep));
  }

  /** A run of list items: opens an item and closes one. */
  predicate IsItem(r: string)
  {
    StartsWith(r, ItemOpen) && EndsWith(r, ItemClose)
  }

  lemma ConcatItems(x: string, y: string)
    requires x == "" || IsItem(x)
    requires y == "" || IsItem(y)
    ensures x + y == "" <==> x == "" && y == ""
    ensures x + y == "" || IsItem(x + y)
  {
    if x != "" {
      assert (x + y)[..|ItemOpen|] == x[..|ItemOpen|];
    }
    if y != "" {
      assert (x + y)[|x + y| - |ItemClose|..] == y[|y| - |ItemClose|..];
    } else {
      assert x + y == x;
    }
  }

  /** No piece of the closing tag can complete an item opening. */
  lemma CloseIsCleanTail()
    ensures CleanTail(ItemClose, DoubleOpen)
  {
    ShortNotContains(ItemClose, DoubleOpen);
    forall m | 0 < m < |DoubleOpen|
      ensures !StartsWith(ItemClose, DoubleOpen[m..])
    {
      assert ItemClose[0] == '<' && ItemClose[1] == '/';
      assert DoubleOpen[m..][0] != '<' || DoubleOpen[m..][1] != '/';
    }
  }

  /** Wrapping rewritten text and collapsing doubled openings yields one
      run of items. */
  lemma WrapIsItem(a: string)
    ensures IsItem(ReplaceAll(ItemOpen + a + ItemClose, DoubleOpen, ItemOpen))
  {
    var w := ItemOpen + a + ItemClose;
    var r := ReplaceAll(w, DoubleOpen, ItemOpen);
    CloseIsCleanTail();
    ReplaceAllCleanTail(ItemOpen + a, ItemClose, DoubleOpen, ItemOpen);
    assert r[|r| - |ItemClose|..] == ItemClose;
    if !StartsWith(w, DoubleOpen) {
      assert w[1..] == "li>" + (a + ItemClose);
      ReplaceAllSkip("li>", a + ItemClose, DoubleOpen, ItemOpen);
      assert r[..4] == ItemOpen;
    }
  }

  /** Text the formatter does not react to passes every step unchanged. */
  lemma PlainIdle(seg: string)
    ensures Plain(seg) ==> !StartsWith(seg, Bullet) && !StartsWith(seg, Dash)
    ensures Plain(seg) ==> ReplaceAll(seg, DashSpace, LineBreak) == seg
    ensures Plain(seg) ==> ReplaceAll(seg, HeadingMark, ItemOpen) == seg
    ensures Plain(seg) ==> ReplaceAll(seg, DoubleOpen, "") == seg
  {
    if Plain(seg) {
      NotStartsWith(seg, Bullet);
      NotStartsWith(seg, Dash);
      ReplacementsIdle(seg);
    }
  }


  /** Text without any character the formatter reacts to. */
  predicate Plain(s: string)
  {
    forall i :: 0 <= i < |s| ==> s[i] != '・' && s[i] != '-' && s[i] != '#' && s[i] != '<'
  }

  /** An empty answer formats to nothing. */
  lemma FormatTextEmpty()
    ensures FormatText("") == ""
  {
    assert Split("", SegmentSep) == [""];
    assert Rewrite("") == "";
    assert Items([""]) == Item("") + Items([]);
  }

  /** An answer without the segment delimiter is a single item. */
  lemma FormatTextSingleSegment(s: string)
    requires !Contains(s, SegmentSep)
    ensures FormatText(s) == Item(s)
  {
    SingletonSplitIff(s, SegmentSep);
    assert Items([s]) == Item(s) + Items([]);
  }

  /** The output is the item of the first segment followed by the output for
      the rest, whenever the first segment holds no delimiter. */
  lemma FormatTextSegments(a: string, b: string)
    requires !Contains(a, SegmentSep)
    ensures FormatText(a + SegmentSep + b) == Item(a) + FormatText(b)
  {
    SplitAtSeparator(a, SegmentSep, b);
    assert ([a] + Split(b, SegmentSep))[1..] == Split(b, SegmentSep);
  }

  /** Text free of dashes, hashes and angle brackets passes the three
      replace-all steps unchanged. */
  lemma ReplacementsIdle(y: string)
    requires Avoids(y, '-') && Avoids(y, '#') && Avoids(y, '<')
    ensures ReplaceAll(y, DashSpace, LineBreak) == y
    ensures ReplaceAll(y, HeadingMark, ItemOpen) == y
    ensures ReplaceAll(y, DoubleOpen, "") == y
  {
    ReplaceAllSkip(y, "", DashSpace, LineBreak);
    ReplaceAllSkip(y, "", HeadingMark, ItemOpen);
    ReplaceAllSkip(y, "", DoubleOpen, "");
    assert y + "" == y;
  }

  /** Wrapping text that holds no `<` and does not start with `<li>`'s
      missing half creates no doubled opening, so the final collapse changes
      nothing. */
  lemma CollapseIdle(y: string)
    requires Avoids(y, '<')
    ensures ReplaceAll(ItemOpen + y + ItemClose, DoubleOpen, ItemOpen) == ItemOpen + y + ItemClose
  {
    var w := ItemOpen + y + ItemClose;
    if |y| > 0 {
      assert w[4] == y[0];
    } else {
      assert w[5] == '/';
    }
    assert !StartsWith(w, DoubleOpen);
    assert w[1..] == "li>" + (y + ItemClose);
    ReplaceAllSkip("li>", y + ItemClose, DoubleOpen, ItemOpen);
    ReplaceAllSkip(y, ItemClose, DoubleOpen, ItemOpen);
    ShortNotContains(ItemClose, DoubleOpen);
    ReplaceAllAbsent(ItemClose, DoubleOpen, ItemOpen);
  }

  /** A plain segment becomes exactly one item holding it. */
  lemma ItemPlain(x: string)
    requires Plain(x) && x != ""
    ensures Item(x) == ItemOpen + x + ItemClose
  {
    NotStartsWith(x, Bullet);
    NotStartsWith(x, Dash);
    ReplacementsIdle(x);
    CollapseIdle(x);
  }

  /** One leading bullet, one leading dash, or a bullet then a dash, is
      removed from a segment. */
  lemma ItemStripsOneMarker(x: string)
    requires Plain(x) && x != ""
    ensures Item(Bullet + x) == ItemOpen + x + ItemClose
    ensures Item(Dash + x) == ItemOpen + x + ItemClose
    ensures Item(Bullet + Dash + x) == ItemOpen + x + ItemClose
  {
    NotStartsWith(x, Dash);
    NotStartsWith(Dash + x, Bullet);
    assert (Bullet + x)[..1] == Bullet && (Bullet + x)[1..] == x;
    assert (Dash + x)[..1] == Dash && (Dash + x)[1..] == x;
    assert (Bullet + Dash + x)[..1] == Bullet && (Bullet + Dash + x)[1..] == Dash + x;
    ReplacementsIdle(x);
    CollapseIdle(x);
  }

  /** Only one leading bullet is removed: a second one stays in the item. */
  lemma ItemKeepsSecondBullet(x: string)
    requires Plain(x) && x != ""
    ensures Item(Bullet + Bullet + x) == ItemOpen + Bullet + x + ItemClose
  {
    var y := Bullet + x;
    assert (Bullet + y)[..1] == Bullet && (Bullet + y)[1..] == y;
    NotStartsWith(y, Dash);
    assert Avoids(y, '-') && Avoids(y, '#') && Avoids(y, '<');
    ReplacementsIdle(y);
    CollapseIdle(y);
    assert ItemOpen + y + ItemClose == ItemOpen + Bullet + x + ItemClose;
  }

  lemma RewriteSecondDash(x: string)
    requires Plain(x) && x != "" && x[0] != ' '
    ensures Rewrite(Dash + Dash + x) == Dash + x
  {
    var y := Dash + x;
    NotStartsWith(Dash + y, Bullet);
    assert (Dash + y)[..1] == Dash && (Dash + y)[1..] == y;
    assert y[1] == x[0];
    assert !StartsWith(y, DashSpace);
    assert y[1..] == x;
    ReplacementsIdle(x);
    assert ReplaceAll(y, DashSpace, LineBreak) == y;
    assert Avoids(y, '#') && Avoids(y, '<');
    ReplaceAllSkip(y, "", HeadingMark, ItemOpen);
    ReplaceAllSkip(y, "", DoubleOpen, "");
    assert y + "" == y;
  }

  /** Only one leading dash is removed: a second one stays in the item. */
  lemma ItemKeepsSecondDash(x: string)
    requires Plain(x) && x != "" && x[0] != ' '
    ensures Item(Dash + Dash + x) == ItemOpen + Dash + x + ItemClose
  {
    var y := Dash + x;
    RewriteSecondDash(x);
    assert Dash + Dash + x == Dash + y;
    ItemOf(Dash + y, y);
    assert Avoids(y, '<');
    CollapseIdle(y);
    assert ItemOpen + y + ItemClose == ItemOpen + Dash + x + ItemClose;
  }

  lemma HeadingSteps(x: string)
    requires Plain(x)
    ensures ReplaceAll(HeadingMark + x, DashSpace, LineBreak) == HeadingMark + x
    ensures ReplaceAll(HeadingMark + x, HeadingMark, ItemOpen) == ItemOpen + x
  {
    var s := HeadingMark + x;
    assert Avoids(s, '-');
    ReplaceAllSkip(s, "", DashSpace, LineBreak);
    assert s + "" == s;
    assert StartsWith(s, HeadingMark) && s[3..] == x;
    ReplacementsIdle(x);
  }

  lemma DeleteAfterHeading(x: string)
    requires Plain(x)
    ensures ReplaceAll(ItemOpen + x, DoubleOpen, "") == ItemOpen + x
  {
    var c := ItemOpen + x;
    if |x| > 0 {
      assert c[4] == x[0];
    }
    assert !StartsWith(c, DoubleOpen);
    assert c[1..] == "li>" + x;
    ReplaceAllSkip("li>", x, DoubleOpen, "");
    ReplacementsIdle(x);
  }

  lemma RewriteHeading(x: string)
    requires Plain(x)
    ensures Rewrite(HeadingMark + x) == ItemOpen + x
  {
    var s := HeadingMark + x;
    NotStartsWith(s, Bullet);
    NotStartsWith(s, Dash);
    HeadingSteps(x);
    DeleteAfterHeading(x);
  }

  lemma CollapseHeading(x: string)
    requires Plain(x)
    ensures ReplaceAll(ItemOpen + (ItemOpen + x) + ItemClose, DoubleOpen, ItemOpen) == ItemOpen + x + ItemClose
  {
    var w := ItemOpen + (ItemOpen + x) + ItemClose;
    assert DoubleOpen == ItemOpen + ItemOpen;
    Regroup3(ItemOpen, ItemOpen, x);
    Regroup3(DoubleOpen, x, ItemClose);
    PrefixOf(DoubleOpen, x + ItemClose);
    ReplaceAllSkip(x, ItemClose, DoubleOpen, ItemOpen);
    ShortNotContains(ItemClose, DoubleOpen);
    ReplaceAllAbsent(ItemClose, DoubleOpen, ItemOpen);
    Regroup3(ItemOpen, x, ItemClose);
  }


  /** Unfolds `Item` once its rewritten segment is known. */
  lemma ItemOf(seg: string, a: string)
    requires Rewrite(seg) == a && a != ""
    ensures Item(seg) == ReplaceAll(ItemOpen + a + ItemClose, DoubleOpen, ItemOpen)
  {
  }

  /** A segment opening with a heading mark yields a single item opening,
      not a doubled one. */
  lemma ItemHeading(x: string)
    requires Plain(x)
    ensures Item(HeadingMark + x) == ItemOpen + x + ItemClose
  {
    RewriteHeading(x);
    ItemOf(HeadingMark + x, ItemOpen + x);
    CollapseHeading(x);
  }

  lemma LineBreakStep(x: string, y: string)
    requires Plain(x) && Plain(y)
    ensures ReplaceAll(x + DashSpace + y, DashSpace, LineBreak) == x + LineBreak + y
  {
    ReplaceAllSkip(x, DashSpace + y, DashSpace, LineBreak);
    assert (DashSpace + y)[2..] == y;
    ReplacementsIdle(y);
    assert x + DashSpace + y == x + (DashSpace + y);
  }

  /** A line break holds a `<` but is no item opening. */
  lemma BreakSurvives(x: string, y: string, tail: string, rep: string)
    requires Plain(x) && Plain(y)
    ensures ReplaceAll(x + LineBreak + y + tail, DoubleOpen, rep)
            == x + LineBreak + y + ReplaceAll(tail, DoubleOpen, rep)
  {
    var t := ReplaceAll(tail, DoubleOpen, rep);
    BreakRegroup(x, y, tail);
    BreakRegroup(x, y, t);
    var u := "br>" + (y + tail);
    ReplaceAllSkip(x, "<" + u, DoubleOpen, rep);
    AngleBeforeB(u, rep);
    ReplaceAllSkip("br>", y + tail, DoubleOpen, rep);
    ReplaceAllSkip(y, tail, DoubleOpen, rep);
  }

  lemma BreakRegroup(x: string, y: string, w: string)
    ensures x + LineBreak + y + w == x + ("<" + ("br>" + (y + w)))
  {
    assert LineBreak == "<" + "br>";
    Regroup4(x, LineBreak, y, w);
    Regroup3("<", "br>", y + w);
  }

  /** A `<` followed by `b` cannot open a doubled item opening. */
  lemma AngleBeforeB(u: string, rep: string)
    requires |u| > 0 && u[0] == 'b'
    ensures ReplaceAll("<" + u, DoubleOpen, rep) == "<" + ReplaceAll(u, DoubleOpen, rep)
  {
    var v := "<" + u;
    assert v[1] == 'b';
    assert !StartsWith(v, DoubleOpen);
    assert v[1..] == u;
  }

  lemma RewriteLineBreak(x: string, y: string)
    requires Plain(x) && Plain(y) && x != ""
    ensures Rewrite(x + DashSpace + y) == x + LineBreak + y
  {
    var s := x + DashSpace + y;
    NotStartsWith(s, Bullet);
    NotStartsWith(s, Dash);
    LineBreakStep(x, y);
    var b := x + LineBreak + y;
    assert Avoids(b, '#');
    ReplaceAllSkip(b, "", HeadingMark, ItemOpen);
    assert b + "" == b;
    BreakSurvives(x, y, "", "");
  }

  /** An item opening followed by anything but `<` is copied through. */
  lemma OpenSurvives(c: string, rep: string)
    requires |c| > 0 && c[0] != '<'
    ensures ReplaceAll(ItemOpen + c, DoubleOpen, rep) == ItemOpen + ReplaceAll(c, DoubleOpen, rep)
  {
    var w := ItemOpen + c;
    assert w[4] == c[0];
    assert !StartsWith(w, DoubleOpen);
    assert w[1..] == "li>" + c;
    ReplaceAllSkip("li>", c, DoubleOpen, rep);
  }

  lemma CollapseLineBreak(x: string, y: string)
    requires Plain(x) && Plain(y) && x != ""
    ensures ReplaceAll(ItemOpen + (x + LineBreak + y) + ItemClose, DoubleOpen, ItemOpen)
            == ItemOpen + x + LineBreak + y + ItemClose
  {
    var m := x + LineBreak + y;
    var c := m + ItemClose;
    Regroup3(ItemOpen, m, ItemClose);
    assert c[0] == x[0];
    OpenSurvives(c, ItemOpen);
    BreakSurvives(x, y, ItemClose, ItemOpen);
    ShortNotContains(ItemClose, DoubleOpen);
    ReplaceAllAbsent(ItemClose, DoubleOpen, ItemOpen);
    Regroup4(ItemOpen, x, LineBreak, y);
    Regroup3(x, LineBreak, y);
  }


  /** A dash followed by a space inside a segment becomes a line break. */
  lemma ItemLineBreak(x: string, y: string)
    requires Plain(x) && Plain(y) && x != ""
    ensures Item(x + DashSpace + y) == ItemOpen + x + LineBreak + y + ItemClose
  {
    RewriteLineBreak(x, y);
    ItemOf(x + DashSpace + y, x + LineBreak + y);
    CollapseLineBreak(x, y);
  }

  /** A segment with no bullet after its first character holds no
      delimiter. */
  lemma {:induction false} NoBulletAfterFirst(a: string)
    requires forall i :: 0 < i < |a| ==> a[i] != '・'
    ensures !Contains(a, SegmentSep)
    decreases |a|
  {
    if |a| > 0 {
      assert |a| >= 2 ==> a[..2][1] == a[1];
      assert !StartsWith(a, SegmentSep);
      NoBulletAfterFirst(a[1..]);
    } else {
      assert !StartsWith(a, SegmentSep);
    }
  }

  /** An answer of three bullet points: the leading bullet is dropped, the
      heading mark opens a single item, and a dash right after a bullet is
      stripped as a leading dash rather than turned into a line break. */
  lemma ThreeSegments(x: string, y: string, z: string)
    requires Plain(x) && Plain(y) && Plain(z) && x != "" && z != ""
    ensures FormatText(Bullet + x + SegmentSep + (HeadingMark + y) + SegmentSep + (Dash + z))
            == ItemOpen + x + ItemClose + (ItemOpen + y + ItemClose) + (ItemOpen + z + ItemClose)
  {
    var s1, s2, s3 := Bullet + x, HeadingMark + y, Dash + z;
    NoBulletAfterFirst(s1);
    NoBulletAfterFirst(s2);
    AvoidsNotContains(s3, SegmentSep, 1);
    ThreeItems(s1, s2, s3);
    Regroup4(s1 + SegmentSep, s2, SegmentSep, s3);
    Regroup3(s2, SegmentSep, s3);
    ItemStripsOneMarker(x);
    ItemHeading(y);
    ItemStripsOneMarker(z);
    Regroup3(Item(s1), Item(s2), Item(s3));
  }

  /** Two delimiter-free segments give their two items in order. */
  lemma TwoItems(s2: string, s3: string)
    requires !Contains(s2, SegmentSep) && !Contains(s3, SegmentSep)
    ensures FormatText(s2 + SegmentSep + s3) == Item(s2) + Item(s3)
  {
    FormatTextSegments(s2, s3);
    FormatTextSingleSegment(s3);
  }

  /** Three delimiter-free segments give their three items in order. */
  lemma ThreeItems(s1: string, s2: string, s3: string)
    requires !Contains(s1, SegmentSep) && !Contains(s2, SegmentSep) && !Contains(s3, SegmentSep)
    ensures FormatText(s1 + SegmentSep + (s2 + SegmentSep + s3)) == Item(s1) + (Item(s2) + Item(s3))
  {
    FormatTextSegments(s1, s2 + SegmentSep + s3);
    TwoItems(s2, s3);
  }

  lemma ExampleParts(answer: string, out: string)
    requires answer == Bullet + "First point" + SegmentSep + (HeadingMark + "Second") + SegmentSep + (Dash + " detail")
    requires out == ItemOpen + "First point" + ItemClose + (ItemOpen + "Second" + ItemClose) + (ItemOpen + " detail" + ItemClose)
    ensures FormatText(answer) == out
  {
    var x, y, z := "First point", "Second", " detail";
    assert Plain(x) && Plain(y) && Plain(z);
    ThreeSegments(x, y, z);
  }

  lemma ExampleInputSpelling()
    ensures Bullet + "First point" + SegmentSep + (HeadingMark + "Second") + SegmentSep + (Dash + " detail")
            == "・First point ・## Second ・- detail"
  {
  }

  lemma ExampleOutputSpelling()
    ensures ItemOpen + "First point" + ItemClose + (ItemOpen + "Second" + ItemClose) + (ItemOpen + " detail" + ItemClose)
            == "<li>First point</li>\n" + "<li>Second</li>\n" + "<li> detail</li>\n"
  {
    SpellItem("First point", "<li>First point</li>\n");
    SpellItem("Second", "<li>Second</li>\n");
    SpellItem(" detail", "<li> detail</li>\n");
  }

  lemma SpellItem(x: string, i: string)
    requires i == "<li>" + x + "</li>\n"
    ensures ItemOpen + x + ItemClose == i
  {
  }


  /** The three-bullet answer spelled out. */
  lemma FormatTextExample(answer: string)
    requires answer == "・First point ・## Second ・- detail"
    ensures FormatText(answer) == "<li>First point</li>\n" + "<li>Second</li>\n" + "<li> detail</li>\n"
  {
    ExampleInputSpelling();
    ExampleOutputSpelling();
    ExampleParts(answer, "<li>First point</li>\n" + "<li>Second</li>\n" + "<li> detail</li>\n");
  }
}

=== FILE: ordering.dfy ===
/** `sorted(d.items(), key=lambda x: x[1], reverse=True)`
    (gen_html_from_google_forms.py:127): Python's sort is stable, and
    `reverse=True` keeps entries with equal counts in their original order. */
module Ordering {
  import opened Tallies

  predicate SortedDesc(t: Tally)
  {
    forall i, j :: 0 <= i < j < |t| ==> t[i].count >= t[j].count
  }

  /** The entries whose count is `c`, in order. */
  function WithCount(t: Tally, c: nat): Tally
  {
    if |t| == 0 then []
    else (if t[0].count == c then [t[0]] else []) + WithCount(t[1..], c)
  }

  /** Puts `e` in front of the first entry whose count is not larger. */
  function Insert(e: Entry, s: Tally): Tally
  {
    if |s| == 0 || e.count >= s[0].count then [e] + s
    else [s[0]] + Insert(e, s[1..])
  }

  /** Stable sort by descending count (insertion sort from the back). */
  function SortByCountDesc(t: Tally): Tally
  {
    if |t| == 0 then [] else Insert(t[0], SortByCountDesc(t[1..]))
  }

  lemma {:induction false} SortLength(t: Tally)
    ensures |SortByCountDesc(t)| == |t|
    decreases |t|
  {
    if |t| > 0 {
      SortLength(t[1..]);
      InsertContents(t[0], SortByCountDesc(t[1..]));
    }
  }

  lemma {:induction false} SortTotal(t: Tally)
    ensures Total(SortByCountDesc(t)) == Total(t)
    decreases |t|
  {
    if |t| > 0 {
      SortTotal(t[1..]);
      InsertTotal(t[0], SortByCountDesc(t[1..]));
    }
  }

  predicate AllAtMost(t: Tally, c: nat)
  {
    forall i :: 0 <= i < |t| ==> t[i].count <= c
  }

  lemma ConsSorted(e: Entry, t: Tally)
    requires SortedDesc(t) && AllAtMost(t, e.count)
    ensures SortedDesc([e] + t)
  {
    var r := [e] + t;
    forall i, j | 0 <= i < j < |r|
      ensures r[i].count >= r[j].count
    {
      assert r[j] == t[j - 1];
      if i > 0 {
        assert r[i] == t[i - 1];
      }
    }
  }

  lemma {:induction false} InsertAtMost(e: Entry, s: Tally, c: nat)
    requires AllAtMost(s, c) && e.count <= c
    ensures AllAtMost(Insert(e, s), c)
    decreases |s|
  {
    if |s| > 0 && e.count < s[0].count {
      InsertAtMost(e, s[1..], c);
    }
  }

  lemma {:induction false} InsertSorted(e: Entry, s: Tally)
    requires SortedDesc(s)
    ensures SortedDesc(Insert(e, s))
    decreases |s|
  {
    if |s| == 0 || e.count >= s[0].count {
      ConsSorted(e, s);
    } else {
      InsertSorted(e, s[1..]);
      InsertAtMost(e, s[1..], s[0].count);
      ConsSorted(s[0], Insert(e, s[1..]));
    }
  }

  lemma InsertContents(e: Entry, s: Tally)
    ensures multiset(Insert(e, s)) == multiset([e] + s)
    ensures |Insert(e, s)| == |s| + 1
    ensures Total(Insert(e, s)) == e.count + Total(s)
  {
    InsertMultiset(e, s);
    InsertTotal(e, s);
  }

  lemma {:induction false} InsertMultiset(e: Entry, s: Tally)
    ensures multiset(Insert(e, s)) == multiset([e] + s)
    ensures |Insert(e, s)| == |s| + 1
    decreases |s|
  {
    if |s| > 0 && e.count < s[0].count {
      var r := Insert(e, s[1..]);
      InsertMultiset(e, s[1..]);
      assert s == [s[0]] + s[1..];
      assert multiset([s[0]] + r) == multiset([s[0]]) + multiset(r);
      assert multiset([e] + s) == multiset([e]) + multiset([s[0]]) + multiset(s[1..]);
    }
  }

  lemma {:induction false} InsertTotal(e: Entry, s: Tally)
    ensures Total(Insert(e, s)) == e.count + Total(s)
    decreases |s|
  {
    if |s| > 0 && e.count < s[0].count {
      InsertTotal(e, s[1..]);
      assert ([s[0]] + Insert(e, s[1..]))[1..] == Insert(e, s[1..]);
    }
  }

  /** Inserting into a sorted tally is stable: among entries of one count,
      the inserted entry comes first. */
  lemma {:induction false} InsertWithCount(e: Entry, s: Tally, c: nat)
    requires SortedDesc(s)
    ensures WithCount(Insert(e, s), c) == (if e.count == c then [e] else []) + WithCount(s, c)
    decreases |s|
  {
    if |s| > 0 && e.count < s[0].count {
      InsertWithCount(e, s[1..], c);
      assert ([s[0]] + Insert(e, s[1..]))[1..] == Insert(e, s[1..]);
    } else {
      assert ([e] + s)[1..] == s;
    }
  }

  /** The sort returns the entries ordered by descending count, a
      permutation of its input that keeps the relative order of entries with
      equal counts. */
  lemma {:induction false} SortByCountDescSpec(t: Tally)
    ensures SortedDesc(SortByCountDesc(t))
    ensures multiset(SortByCountDesc(t)) == multiset(t)
    ensures |SortByCountDesc(t)| == |t| && Total(SortByCountDesc(t)) == Total(t)
    ensures forall c: nat :: WithCount(SortByCountDesc(t), c) == WithCount(t, c)
    decreases |t|
  {
    if |t| > 0 {
      SortByCountDescSpec(t[1..]);
      var s := SortByCountDesc(t[1..]);
      InsertSorted(t[0], s);
      InsertContents(t[0], s);
      assert t == [t[0]] + t[1..];
      forall c: nat
        ensures WithCount(SortByCountDesc(t), c) == WithCount(t, c)
      {
        InsertWithCount(t[0], s, c);
      }
    }
  }

  lemma {:induction false} InsertAnswers(e: Entry, s: Tally)
    ensures forall a :: a in Answers(Insert(e, s)) <==> a == e.answer || a in Answers(s)
    decreases |s|
  {
    if |s| > 0 && e.count < s[0].count {
      InsertAnswers(e, s[1..]);
      assert Answers(s) == [s[0].answer] + Answers(s[1..]);
      assert Answers(Insert(e, s)) == [s[0].answer] + Answers(Insert(e, s[1..]));
    } else {
      assert Answers([e] + s) == [e.answer] + Answers(s);
    }
  }

  lemma {:induction false} InsertDistinct(e: Entry, s: Tally)
    requires Distinct(s) && e.answer !in Answers(s)
    ensures Distinct(Insert(e, s))
    decreases |s|
  {
    if |s| > 0 && e.count < s[0].count {
      assert Answers(s) == [s[0].answer] + Answers(s[1..]);
      assert Distinct(s[1..]);
      InsertDistinct(e, s[1..]);
      InsertAnswers(e, s[1..]);
      ConsDistinct(s[0], Insert(e, s[1..]));
    } else {
      ConsDistinct(e, s);
    }
  }

  /** Sorting keeps the keys, and keeps them unique. */
  lemma {:induction false} SortAnswers(t: Tally)
    ensures forall a :: a in Answers(SortByCountDesc(t)) <==> a in Answers(t)
    ensures Distinct(t) ==> Distinct(SortByCountDesc(t))
    decreases |t|
  {
    if |t| > 0 {
      SortAnswers(t[1..]);
      InsertAnswers(t[0], SortByCountDesc(t[1..]));
      assert Answers(t) == [t[0].answer] + Answers(t[1..]);
      if Distinct(t) {
        assert Distinct(t[1..]);
        InsertDistinct(t[0], SortByCountDesc(t[1..]));
      }
    }
  }

  /** An already sorted tally is left exactly as it is. */
  lemma {:induction false} SortSortedIsIdentity(t: Tally)
    requires SortedDesc(t)
    ensures SortByCountDesc(t) == t
    decreases |t|
  {
    if |t| > 0 {
      SortSortedIsIdentity(t[1..]);
      assert t == [t[0]] + t[1..];
    }
  }

  /** The entries counted at least `k` times, in order. */
  function AtLeast(t: Tally, k: nat): (r: Tally)
    ensures forall i :: 0 <= i < |r| ==> r[i].count >= k
  {
    if |t| == 0 then []
    else (if t[0].count >= k then [t[0]] else []) + AtLeast(t[1..], k)
  }

  /** The entries counted fewer than `k` times, in order. */
  function Below(t: Tally, k: nat): (r: Tally)
    ensures forall i :: 0 <= i < |r| ==> r[i].count < k
  {
    if |t| == 0 then []
    else (if t[0].count < k then [t[0]] else []) + Below(t[1..], k)
  }

  lemma {:induction false} AtLeastAtMost(t: Tally, k: nat, c: nat)
    requires AllAtMost(t, c)
    ensures AllAtMost(AtLeast(t, k), c)
    decreases |t|
  {
    if |t| > 0 {
      AtLeastAtMost(t[1..], k, c);
    }
  }

  lemma {:induction false} InsertAtLeast(e: Entry, s: Tally, k: nat)
    requires SortedDesc(s)
    ensures AtLeast(Insert(e, s), k) ==
            if e.count >= k then Insert(e, AtLeast(s, k)) else AtLeast(s, k)
    decreases |s|
  {
    if |s| > 0 && e.count < s[0].count {
      InsertAtLeast(e, s[1..], k);
      assert ([s[0]] + Insert(e, s[1..]))[1..] == Insert(e, s[1..]);
    } else {
      assert ([e] + s)[1..] == s;
      if |s| > 0 && e.count >= k {
        AtLeastAtMost(s, k, s[0].count);
        var a := AtLeast(s, k);
        if |a| > 0 {
          assert a[0].count <= s[0].count;
        }
      }
    }
  }

  /** Filtering by a count threshold commutes with the stable sort. */
  lemma {:induction false} SortAtLeast(t: Tally, k: nat)
    ensures AtLeast(SortByCountDesc(t), k) == SortByCountDesc(AtLeast(t, k))
    decreases |t|
  {
    if |t| > 0 {
      SortAtLeast(t[1..], k);
      SortByCountDescSpec(t[1..]);
      InsertAtLeast(t[0], SortByCountDesc(t[1..]), k);
      assert AtLeast(t, k) == (if t[0].count >= k then [t[0]] else []) + AtLeast(t[1..], k);
      if t[0].count >= k {
        var a := [t[0]] + AtLeast(t[1..], k);
        assert a[0] == t[0] && a[1..] == AtLeast(t[1..], k);
        assert SortByCountDesc(a) == Insert(t[0], SortByCountDesc(AtLeast(t[1..], k)));
      } else {
        assert AtLeast(t, k) == AtLeast(t[1..], k);
      }
    }
  }

  /** In a sorted tally the entries at or above a threshold all come first. */
  lemma {:induction false} SortedSplitsAtThreshold(t: Tally, k: nat)
    requires SortedDesc(t)
    ensures t == AtLeast(t, k) + Below(t, k)
    decreases |t|
  {
    if |t| > 0 {
      SortedSplitsAtThreshold(t[1..], k);
      if t[0].count < k {
        assert AtLeast(t[1..], k) == [] by {
          AtLeastEmpty(t[1..], k, t[0].count);
        }
      }
      assert t == [t[0]] + t[1..];
    }
  }

  lemma {:induction false} AtLeastEmpty(t: Tally, k: nat, c: nat)
    requires AllAtMost(t, c) && c < k
    ensures AtLeast(t, k) == []
    decreases |t|
  {
    if |t| > 0 {
      AtLeastEmpty(t[1..], k, c);
    }
  }

  /** Since counts are positive, the entries below 2 are those counted once. */
  lemma {:induction false} BelowTwoIsOnce(t: Tally)
    ensures Below(t, 2) == WithCount(t, 1)
    decreases |t|
  {
    if |t| > 0 {
      BelowTwoIsOnce(t[1..]);
    }
  }

  /** Since counts are positive, no entry falls below 1. */
  lemma {:induction false} AtLeastOneIsAll(t: Tally)
    ensures AtLeast(t, 1) == t && Below(t, 1) == []
    decreases |t|
  {
    if |t| > 0 {
      AtLeastOneIsAll(t[1..]);
      assert t == [t[0]] + t[1..];
    }
  }
}

=== FILE: percent.dfy ===
/** `get_percentage` (gen_html_from_google_forms.py:181-183): the share of
    one count in the question's total, truncated to hundredths of a percent
    and rendered as Python renders the float `t / 100`, followed by `%`. */
module Percent {
  import opened Results
  import opened Decimal

  /** `math.floor(cnt / total * 10000)`, computed exactly. */
  function Hundredths(cnt: nat, total: nat): (t: nat)
    requires total > 0
    ensures t * total <= cnt * 10000 < (t + 1) * total
  {
    cnt * 10000 / total
  }

  /** The digits after the point in `repr(t / 100)`: trailing zeros are
      dropped but one digit always remains. */
  function FractionDigits(f: nat): (r: string)
    requires f < 100
    ensures 1 <= |r| <= 2 && AllDigits(r)
  {
    if f % 10 == 0 then [DigitChar(f / 10)] else [DigitChar(f / 10), DigitChar(f % 10)]
  }

  /** `repr(t / 100)` for a whole number of hundredths: the point is
      followed by one digit, or by two of which the last is not a zero. */
  function HundredthsToString(t: nat): (r: string)
    ensures |r| >= 3
    ensures r[|r| - 2] == '.' || (r[|r| - 3] == '.' && r[|r| - 1] != '0')
  {
    NatToString(t / 100) + "." + FractionDigits(t % 100)
  }

  /** `get_percentage(cnt, nums)` with `total == sum(nums)`; a zero total
      raises `ZeroDivisionError`. */
  function Percentage(cnt: nat, total: nat): (r: Result<string>)
    ensures r.Failure? <==> total == 0
    ensures r.Failure? ==> r.error == ZeroDivisionError
    ensures r.Success? ==> |r.value| >= 4 && r.value[|r.value| - 1] == '%'
  {
    if total == 0 then Failure(ZeroDivisionError)
    else Success(HundredthsToString(Hundredths(cnt, total)) + "%")
  }

  /** Reads back a rendered percentage as a number of hundredths. Only the
      canonical spelling is accepted: a second fraction digit is never a
      trailing zero. */
  function ParsePercent(s: string): Option<nat>
  {
    if |s| >= 4 && s[|s| - 1] == '%' && s[|s| - 3] == '.' && IsDigit(s[|s| - 2]) then
      match ParseNat(s[..|s| - 3])
      case Some(w) => Some(w * 100 + 10 * DigitValue(s[|s| - 2]))
      case None => None
    else if |s| >= 5 && s[|s| - 1] == '%' && s[|s| - 4] == '.'
            && IsDigit(s[|s| - 3]) && IsDigit(s[|s| - 2]) && s[|s| - 2] != '0' then
      match ParseNat(s[..|s| - 4])
      case Some(w) => Some(w * 100 + 10 * DigitValue(s[|s| - 3]) + DigitValue(s[|s| - 2]))
      case None => None
    else None
  }

  /** `repr(t / 100)` followed by "%" reads back as `t`. */
  lemma HundredthsRoundTrip(t: nat)
    ensures ParsePercent(HundredthsToString(t) + "%") == Some(t)
  {
    var w := NatToString(t / 100);
    var f := FractionDigits(t % 100);
    var s := HundredthsToString(t) + "%";
    assert s == w + "." + f + "%";
    ParseNatToString(t / 100);
    if t % 100 % 10 == 0 {
      assert s[..|s| - 3] == w;
      assert s[|s| - 2] == DigitChar(t % 100 / 10);
    } else {
      assert s[..|s| - 4] == w;
      assert s[|s| - 3] == DigitChar(t % 100 / 10);
      assert s[|s| - 2] == DigitChar(t % 100 % 10);
    }
  }

  /** The rendered text denotes exactly the truncated number of hundredths. */
  lemma PercentageRoundTrip(cnt: nat, total: nat)
    requires total > 0
    ensures ParsePercent(Percentage(cnt, total).value) == Some(Hundredths(cnt, total))
  {
    HundredthsRoundTrip(Hundredths(cnt, total));
  }

  /** A count between zero and the total gives a share between 0% and 100%. */
  lemma PercentageBounds(cnt: nat, total: nat)
    requires 0 < total && cnt <= total
    ensures 0 <= Hundredths(cnt, total) <= 10000
  {
    var t := Hundredths(cnt, total);
    MulLeft(cnt, total, 10000);
    FactorLess(t, 10001, total);
  }

  lemma MulLeft(a: nat, b: nat, k: nat)
    requires a <= b
    ensures a * k <= b * k
  {
  }

  /** Cancels a positive factor from a strict inequality. */
  lemma FactorLess(a: nat, b: nat, c: nat)
    requires c > 0 && a * c < b * c
    ensures a < b
  {
    if a >= b {
      MulLeft(b, a, c);
    }
  }

  /** A larger count never shows a smaller share. */
  lemma PercentageMonotone(c1: nat, c2: nat, total: nat)
    requires 0 < total && c1 <= c2
    ensures Hundredths(c1, total) <= Hundredths(c2, total)
  {
    var t1 := Hundredths(c1, total);
    var t2 := Hundredths(c2, total);
    MulLeft(c1, c2, 10000);
    FactorLess(t1, t2 + 1, total);
  }

  /** Every answer of the question counted in one entry reads `100.0%`. */
  lemma PercentageOfTotal(total: nat)
    requires total > 0
    ensures Percentage(total, total) == Success("100.0%")
  {
    assert Hundredths(total, total) == 10000 by {
      FactorLess(Hundredths(total, total), 10001, total);
      FactorLess(9999, Hundredths(total, total), total);
    }
    ExampleText(10000, "100", "0", "100.0%");
  }

  lemma ExampleText(t: nat, w: string, f: string, expected: string)
    requires NatToString(t / 100) == w && FractionDigits(t % 100) == f
    requires expected == w + "." + f + "%"
    ensures HundredthsToString(t) + "%" == expected
  {
  }

  /** Truncation, not rounding: two thirds read `66.66%`, one third `33.33%`,
      one half `50.0%`. */
  lemma PercentageExamples()
    ensures Percentage(2, 3) == Success("66.66%")
    ensures Percentage(1, 3) == Success("33.33%")
    ensures Percentage(1, 2) == Success("50.0%")
    ensures Percentage(1, 0) == Failure(ZeroDivisionError)
  {
    assert Hundredths(2, 3) == 6666;
    assert Hundredths(1, 3) == 3333;
    assert Hundredths(1, 2) == 5000;
    assert NatToString(6) == "6" && NatToString(66) == "66";
    assert NatToString(3) == "3" && NatToString(33) == "33";
    assert NatToString(5) == "5" && NatToString(50) == "50";
    ExampleText(6666, "66", "66", "66.66%");
    ExampleText(3333, "33", "33", "33.33%");
    ExampleText(5000, "50", "0", "50.0%");
  }
}

=== FILE: report.dfy ===
/** `gen_html` (gen_html_from_google_forms.py:112-177): turns the
    re-tallied answers into report content, one section per question. Each
    `print` call becomes one fragment of the returned sequence. */
module Report {
  import opened Results
  import opened Decimal
  import opened Tallies
  import opened Ordering
  import opened Percent
  import opened FreeText
  import opened Strings

  /** The form's timestamp column, never reported. */
  const Timestamp: string := "タイムスタンプ"
  /** The bucket answers given only once are folded into ("Other"). */
  const OtherAnswer: string := "その他"
  /** Questions whose answers are never folded, however rare (line 13). */
  const NotOthers: seq<string> := ["所属部署", "勤続年数"]

  const TableHeader: string :=
    "<table><thead><tr><th>回答</th><th>回答数</th>" + HeaderIndent + "<th>回答割合</th></tr></thead>"
  const TableEnd: string := "</table>"
  const OtherHeading: string := "<h3>その他には以下のような回答が寄せられています</h3>"

  /** The indentation a backslash continuation keeps inside the header
      string (12 spaces) and inside a row string (24 spaces). */
  const HeaderIndent: string := Spaces(12)
  const RowIndent: string := Spaces(24)

  function Spaces(n: nat): string
  {
    seq(n, _ => ' ')
  }

  datatype Fragment =
    | Prologue                                // lines 114-118: doctype line and stylesheet
    | Heading(number: nat, question: string)  // line 133
    | PieChart(slices: Tally)                 // `plot_to_base64(labels, sizes)`, line 163
    | Html(text: string)

  const HeadingOpen: string := "<h2>Q"
  const NumberEnd: string := ". "
  const HeadingClose: string := "</h2>"

  /** `f'<h2>Q{q_cnt}. {q}</h2>'` (line 133). */
  function HeadingText(number: nat, question: string): string
  {
    HeadingOpen + NatToString(number) + NumberEnd + question + HeadingClose
  }

  /** Reads a question heading back: the number runs up to the first
      non-digit, and the question is everything between ". " and the
      closing tag. */
  function ParseHeading(s: string): (r: Option<Fragment>)
    ensures r.Some? ==> r.value.Heading?
  {
    if |s| < |HeadingOpen| + |HeadingClose| || !StartsWith(s, HeadingOpen) || !EndsWith(s, HeadingClose) then None
    else
      var body := s[|HeadingOpen|..|s| - |HeadingClose|];
      var n := DigitRun(body);
      match LeadingNat(body)
      case None => None
      case Some(number) =>
        if StartsWith(body[n..], NumberEnd) then Some(Heading(number, body[n + |NumberEnd|..])) else None
  }

  /** The text one fragment prints. The stylesheet and the chart image come
      from code outside this model and are given as parameters. */
  function Text(f: Fragment, style: string, chart: Tally -> string): (r: string)
    ensures f.Heading? ==> ParseHeading(r) == Some(f)
    ensures f.Html? ==> r == f.text
  {
    match f
    case Prologue => "\n<!DOCTYPE html>\n<HTML><HEAD>" + style + "</HEAD>"
    case Heading(number, question) =>
      HeadingRoundTrip(number, question);
      HeadingText(number, question)
    case PieChart(slices) => chart(slices)
    case Html(text) => text
  }

  const RowOpen: string := "<tr><td>"
  const CountOpen: string := "</td><td class=count>"
  const ShareOpen: string := "</td>" + RowIndent + "<td class=count>"
  const RowEnd: string := "</td></tr>\n"
  const RowTail: string := RowIndent + RowEnd

  /** One table row (lines 149-151): answer, count and share of the total.
      The backslash continuations keep the next line's indentation, 24
      spaces, inside the string. */
  function Row(e: Entry, total: nat): string
    requires total > 0
  {
    RowOpen + e.answer + CountOpen + NatToString(e.count) + ShareOpen + Percentage(e.count, total).value + RowTail
  }

  /** The rows of the table, `tables += ...` once per row. */
  function Rows(rows: Tally, total: nat): string
    requires total > 0
  {
    if |rows| == 0 then "" else Row(rows[0], total) + Rows(rows[1..], total)
  }

  /** One `format_text` print per answer. */
  function FreeTexts(answers: seq<string>): (r: seq<Fragment>)
    ensures |r| == |answers|
    ensures forall i :: 0 <= i < |r| ==> r[i] == Html(FormatText(answers[i]))
  {
    if |answers| == 0 then [] else [Html(FormatText(answers[0]))] + FreeTexts(answers[1..])
  }

  /** What lines 143-158 build: the table rows, the pie-chart dict
      `plot_ans`, and the folded answers `other_ans`. */
  datatype Classification = Classification(rows: Tally, plot: Tally, others: seq<string>)

  /** An answer keeps its own row when given more than once, or always for
      the exempt questions (line 145). */
  predicate Kept(e: Entry, exempt: bool)
  {
    e.count > 1 || exempt
  }

  /** One iteration of the loop of lines 143-158. */
  function Step(e: Entry, exempt: bool, acc: Classification): Classification
  {
    if Kept(e, exempt) then
      if e.answer !in Answers(acc.plot) then Classification(acc.rows + [e], acc.plot + [e], acc.others)
      else acc
    else Classification(acc.rows, Bump(acc.plot, OtherAnswer), acc.others + [e.answer])
  }

  /** Lines 143-158, one entry at a time. */
  function ClassifyFrom(es: Tally, exempt: bool, acc: Classification): Classification
    decreases |es|
  {
    if |es| == 0 then acc else ClassifyFrom(es[1..], exempt, Step(es[0], exempt, acc))
  }

  function Classify(es: Tally, exempt: bool): Classification
  {
    ClassifyFrom(es, exempt, Classification([], [], []))
  }

  /** The sorted tally of one question, as line 127 computes it. */
  function Sorted(col: Column): Tally
  {
    SortByCountDesc(col.tally)
  }

  /** A question whose every answer was given once is free text (line 139). */
  predicate FreeTextOnly(col: Column)
    requires |col.tally| > 0
  {
    MaxCount(Sorted(col)) == 1
  }

  /** The section of one question (lines 125-175). `max()` over an empty
      tally raises before anything of the section is printed. */
  function RenderQuestion(number: nat, col: Column): (r: Result<seq<Fragment>>)
    ensures r.Failure? <==> |col.tally| == 0
    ensures r.Failure? ==> r.error == EmptyMaxError(col.question)
    ensures r.Success? ==> |r.value| >= 1 && r.value[0] == Heading(number, col.question)
    ensures r.Success? ==> forall i :: 1 <= i < |r.value| ==> !r.value[i].Heading?
  {
    if |col.tally| == 0 then Failure(EmptyMaxError(col.question))
    else Success([Heading(number, col.question)] + SectionBody(col))
  }

  /** What a section prints after its heading (lines 162-175): the answers
      one by one for a free-text question, else chart, table and the folded
      answers. */
  function SectionBody(col: Column): (r: seq<Fragment>)
    requires |col.tally| > 0
    ensures forall i :: 0 <= i < |r| ==> !r[i].Heading?
  {
    var sorted := Sorted(col);
    SortLength(col.tally);
    if FreeTextOnly(col) then FreeTexts(Answers(sorted))
    else
      var c := Classify(sorted, col.question in NotOthers);
      [PieChart(c.plot), Html(TableHeader), Html(Rows(c.rows, Total(sorted))), Html(TableEnd)]
      + (if |c.others| != 0 then [Html(OtherHeading)] + FreeTexts(c.others) else [])
  }

  /** The output of `gen_html`: what was printed, and the exception that
      stopped it, if any. */
  datatype Report = Report(fragments: seq<Fragment>, error: Option<Error>)

  /** Lines 121-177 from a given question counter on. */
  function RenderFrom(data: seq<Column>, number: nat): (r: Report)
    ensures r.error.Some? ==> exists i :: 0 <= i < |data| && data[i].tally == [] && r.error == Some(EmptyMaxError(data[i].question))
    decreases |data|
  {
    if |data| == 0 then Report([], None)
    else if data[0].question == Timestamp then RenderFrom(data[1..], number)
    else
      match RenderQuestion(number, data[0])
      case Failure(e) => Report([], Some(e))
      case Success(section) =>
        var rest := RenderFrom(data[1..], number + 1);
        Report(section + rest.fragments, rest.error)
  }

  /** `gen_html(data)`: the prologue, then the sections numbered from 1. */
  function GenHtml(data: seq<Column>): (r: Report)
    ensures |r.fragments| >= 1 && r.fragments[0] == Prologue
    ensures r.error.Some? ==> exists i :: 0 <= i < |data| && data[i].tally == [] && r.error == Some(EmptyMaxError(data[i].question))
  {
    var body := RenderFrom(data, 1);
    Report([Prologue] + body.fragments, body.error)
  }

  // ---------------------------------------------------------------------
  // Table rows

  /** A row opens with its answer; the count cell that follows reads back
      as the entry's count; the row closes with the entry's share. */
  lemma RowCells(e: Entry, total: nat)
    requires total > 0
    ensures var r := Row(e, total);
            var p := RowOpen + e.answer + CountOpen;
            && StartsWith(r, p)
            && LeadingNat(r[|p|..]) == Some(e.count)
            && EndsWith(r, Percentage(e.count, total).value + RowTail)
  {
    Cells(RowOpen + e.answer + CountOpen, e.count, ShareOpen, Percentage(e.count, total).value, RowTail);
  }

  lemma RowEndsRow(e: Entry, total: nat)
    requires total > 0
    ensures EndsWith(Row(e, total), RowEnd)
  {
    Cells(RowOpen + e.answer + CountOpen, e.count, ShareOpen, Percentage(e.count, total).value, RowTail);
    EndsWithShorter(Row(e, total), RowIndent, RowEnd);
  }

  /** A number cell between a prefix and a non-digit reads back, and the
      text ends with its last two parts. */
  lemma Cells(p: string, n: nat, m: string, share: string, t: string)
    requires |m| > 0 && !IsDigit(m[0])
    ensures var s := p + NatToString(n) + m + share + t;
            && StartsWith(s, p)
            && LeadingNat(s[|p|..]) == Some(n)
            && EndsWith(s, share + t)
            && EndsWith(s, t)
  {
    var d := NatToString(n);
    Regroup4(p + d, m, share, t);
    Regroup3(p, d, m + (share + t));
    Regroup3(m, share, t);
    NumberAfter(p, n, m + share + t);
    Regroup3(p + d + m, share, t);
    EndsWithTail(p + d + m, share + t);
    EndsWithTail(p + d + m + share, t);
  }

  lemma NumberAfter(p: string, n: nat, rest: string)
    requires |rest| > 0 && !IsDigit(rest[0])
    ensures StartsWith(p + (NatToString(n) + rest), p)
    ensures LeadingNat((p + (NatToString(n) + rest))[|p|..]) == Some(n)
  {
    var s := p + (NatToString(n) + rest);
    assert s[..|p|] == p;
    assert s[|p|..] == NatToString(n) + rest;
    LeadingNatToString(n, rest);
  }

  lemma EndsWithTail(a: string, t: string)
    ensures EndsWith(a + t, t)
  {
    assert (a + t)[|a + t| - |t|..] == t;
  }

  /** Appending row after row, as the loop does, gives the rows of the
      whole list. */
  lemma {:induction false} RowsAppend(a: Tally, b: Tally, total: nat)
    requires total > 0
    ensures Rows(a + b, total) == Rows(a, total) + Rows(b, total)
    decreases |a|
  {
    if |a| == 0 {
      assert a + b == b;
    } else {
      assert (a + b)[0] == a[0];
      assert (a + b)[1..] == a[1..] + b;
      RowsAppend(a[1..], b, total);
    }
  }

  /** One line per row: the table text ends with a newline exactly when it
      has a row. */
  lemma RowsLines(rows: Tally, total: nat)
    requires total > 0
    ensures Rows(rows, total) == "" <==> |rows| == 0
    ensures |rows| > 0 ==> EndsWith(Rows(rows, total), RowEnd)
    decreases |rows|
  {
    if |rows| > 0 {
      RowsLines(rows[1..], total);
      var r0 := Row(rows[0], total);
      var tl := Rows(rows[1..], total);
      assert Rows(rows, total) == r0 + tl;
      if |rows| > 1 {
        EndsWithExtend(r0, tl, RowEnd);
      } else {
        assert r0 + tl == r0;
        RowEndsRow(rows[0], total);
      }
    }
  }

  lemma EndsWithExtend(a: string, b: string, t: string)
    requires EndsWith(b, t)
    ensures EndsWith(a + b, t)
  {
    assert (a + b)[|a + b| - |t|..] == b[|b| - |t|..];
  }

  lemma EndsWithShorter(s: string, a: string, t: string)
    requires EndsWith(s, a + t)
    ensures EndsWith(s, t)
  {
    assert s[|s| - |t|..] == (a + t)[|a|..];
  }

  // ---------------------------------------------------------------------
  // Classification

  /** `n` copies of `v`. */
  function Repeat(v: string, n: nat): (r: seq<string>)
    ensures |r| == n && multiset(r)[v] == n
    ensures forall i :: 0 <= i < n ==> r[i] == v
  {
    if n == 0 then [] else [v] + Repeat(v, n - 1)
  }

  lemma {:induction false} ClassifyAppend(a: Tally, b: Tally, exempt: bool, acc: Classification)
    ensures ClassifyFrom(a + b, exempt, acc) == ClassifyFrom(b, exempt, ClassifyFrom(a, exempt, acc))
    decreases |a|
  {
    if |a| == 0 {
      assert a + b == b;
    } else {
      assert (a + b)[0] == a[0];
      assert (a + b)[1..] == a[1..] + b;
      ClassifyAppend(a[1..], b, exempt, Step(a[0], exempt, acc));
    }
  }

  /** Entries that are all kept, with new answers, each add one row and one
      slice of their own count. */
  lemma {:induction false} ClassifyAllKept(es: Tally, exempt: bool, acc: Classification)
    requires forall i :: 0 <= i < |es| ==> Kept(es[i], exempt)
    requires Distinct(es)
    requires forall i :: 0 <= i < |es| ==> es[i].answer !in Answers(acc.plot)
    ensures ClassifyFrom(es, exempt, acc) == Classification(acc.rows + es, acc.plot + es, acc.others)
    decreases |es|
  {
    if |es| > 0 {
      var e := es[0];
      var next := Classification(acc.rows + [e], acc.plot + [e], acc.others);
      AnswersAppend(acc.plot, [e]);
      assert Answers(next.plot) == Answers(acc.plot) + [e.answer];
      assert Distinct(es[1..]);
      ClassifyAllKept(es[1..], exempt, next);
      assert [e] + es[1..] == es;
      assert acc.rows + [e] + es[1..] == acc.rows + es;
      assert acc.plot + [e] + es[1..] == acc.plot + es;
    }
  }

  lemma FoldOtherStep(plot: Tally, n: nat)
    ensures BumpAll(Bump(plot, OtherAnswer), Repeat(OtherAnswer, n)) == BumpAll(plot, Repeat(OtherAnswer, n + 1))
  {
    var vs := Repeat(OtherAnswer, n + 1);
    assert vs[0] == OtherAnswer && vs[1..] == Repeat(OtherAnswer, n);
  }

  /** Folding one entry: its answer joins the folded list. */
  lemma FoldStep(es: Tally, exempt: bool, acc: Classification)
    requires |es| > 0 && !Kept(es[0], exempt)
    ensures ClassifyFrom(es, exempt, acc) == ClassifyFrom(es[1..], exempt, Step(es[0], exempt, acc))
    ensures Step(es[0], exempt, acc)
            == Classification(acc.rows, Bump(acc.plot, OtherAnswer), acc.others + [es[0].answer])
    ensures Answers(es) == [es[0].answer] + Answers(es[1..])
  {
  }

  /** Entries that are all folded each add one unit to the "Other" slice and
      their answer to the folded list. */
  lemma {:induction false} ClassifyAllFolded(es: Tally, exempt: bool, acc: Classification)
    requires forall i :: 0 <= i < |es| ==> !Kept(es[i], exempt)
    ensures ClassifyFrom(es, exempt, acc)
            == Classification(acc.rows, BumpAll(acc.plot, Repeat(OtherAnswer, |es|)), acc.others + Answers(es))
    decreases |es|
  {
    if |es| > 0 {
      var rest := es[1..];
      var next := Step(es[0], exempt, acc);
      FoldStep(es, exempt, acc);
      ClassifyAllFolded(rest, exempt, next);
      FoldCombine(acc, es[0].answer, Answers(rest), Answers(es), |rest|, ClassifyFrom(es, exempt, acc));
    }
  }

  lemma FoldCombine(acc: Classification, a: string, tail: seq<string>, answers: seq<string>, n: nat, r: Classification)
    requires answers == [a] + tail
    requires r == Classification(acc.rows, BumpAll(Bump(acc.plot, OtherAnswer), Repeat(OtherAnswer, n)), acc.others + [a] + tail)
    ensures r == Classification(acc.rows, BumpAll(acc.plot, Repeat(OtherAnswer, n + 1)), acc.others + answers)
  {
    FoldOtherStep(acc.plot, n);
    Regroup3(acc.others, [a], tail);
  }

  /** The answers of the entries that lose their own row, in order. */
  function Folded(es: Tally, exempt: bool): seq<string>
  {
    if |es| == 0 then []
    else (if Kept(es[0], exempt) then [] else [es[0].answer]) + Folded(es[1..], exempt)
  }

  /** One iteration keeps the chart balanced against the table and the
      folded list: a new kept entry adds its count to both chart and table,
      a folded one adds one unit to the chart and one answer to the list. */
  lemma StepBalance(e: Entry, exempt: bool, acc: Classification)
    ensures var r := Step(e, exempt, acc);
            && Total(r.plot) + Total(acc.rows) + |acc.others| == Total(acc.plot) + Total(r.rows) + |r.others|
            && r.others == acc.others + (if Kept(e, exempt) then [] else [e.answer])
            && (r.rows == acc.rows || (r.rows == acc.rows + [e] && Kept(e, exempt)))
  {
    TotalAppend(acc.plot, [e]);
    TotalAppend(acc.rows, [e]);
  }

  lemma {:induction false} ClassifyFromBalance(es: Tally, exempt: bool, acc: Classification)
    ensures var r := ClassifyFrom(es, exempt, acc);
            && Total(r.plot) + Total(acc.rows) + |acc.others| == Total(acc.plot) + Total(r.rows) + |r.others|
            && |r.rows| + |r.others| <= |acc.rows| + |acc.others| + |es|
    decreases |es|
  {
    if |es| > 0 {
      StepBalance(es[0], exempt, acc);
      ClassifyFromBalance(es[1..], exempt, Step(es[0], exempt, acc));
    }
  }

  lemma {:induction false} ClassifyFromFolded(es: Tally, exempt: bool, acc: Classification)
    ensures ClassifyFrom(es, exempt, acc).others == acc.others + Folded(es, exempt)
    decreases |es|
  {
    if |es| > 0 {
      var next := Step(es[0], exempt, acc);
      StepBalance(es[0], exempt, acc);
      ClassifyFromFolded(es[1..], exempt, next);
      var x := if Kept(es[0], exempt) then [] else [es[0].answer];
      Regroup3(acc.others, x, Folded(es[1..], exempt));
    }
  }

  lemma {:induction false} ClassifyFromRows(es: Tally, exempt: bool, acc: Classification)
    ensures var r := ClassifyFrom(es, exempt, acc);
            && |acc.rows| <= |r.rows| && r.rows[..|acc.rows|] == acc.rows
            && forall i :: |acc.rows| <= i < |r.rows| ==> r.rows[i] in es && Kept(r.rows[i], exempt)
    decreases |es|
  {
    if |es| > 0 {
      var next := Step(es[0], exempt, acc);
      var r := ClassifyFrom(es, exempt, acc);
      StepBalance(es[0], exempt, acc);
      ClassifyFromRows(es[1..], exempt, next);
      assert r.rows[..|acc.rows|] == r.rows[..|next.rows|][..|acc.rows|];
      forall i | |acc.rows| <= i < |r.rows|
        ensures r.rows[i] in es && Kept(r.rows[i], exempt)
      {
        if i < |next.rows| {
          assert r.rows[i] == next.rows[i] == es[0];
        } else {
          assert r.rows[i] in es[1..];
        }
      }
    }
  }

  /** Whatever the order of the tally, the chart counts each table row
      with its own count and each folded answer once; the folded answers
      are those of the entries that lose their row, in order; and every row
      is an entry of the tally that keeps its row. */
  lemma ClassifyBalance(es: Tally, exempt: bool)
    ensures var c := Classify(es, exempt);
            && Total(c.plot) == Total(c.rows) + |c.others|
            && c.others == Folded(es, exempt)
            && |c.rows| + |c.others| <= |es|
            && forall i :: 0 <= i < |c.rows| ==> c.rows[i] in es && Kept(c.rows[i], exempt)
  {
    ClassifyFromBalance(es, exempt, Classification([], [], []));
    ClassifyFromFolded(es, exempt, Classification([], [], []));
    ClassifyFromRows(es, exempt, Classification([], [], []));
    assert [] + Folded(es, exempt) == Folded(es, exempt);
  }

  /** The count an entry needs to keep its own row. */
  function Threshold(exempt: bool): nat
  {
    if exempt then 1 else 2
  }

  lemma DistinctPrefix(a: Tally, b: Tally)
    requires Distinct(a + b)
    ensures Distinct(a)
  {
    forall i, j | 0 <= i < j < |a|
      ensures a[i].answer != a[j].answer
    {
      assert a[i] == (a + b)[i] && a[j] == (a + b)[j];
    }
  }

  /** On a sorted tally with unique answers, the loop of lines 143-158 keeps
      the leading entries at or above the threshold as rows and slices, and
      folds every later entry into the "Other" slice; the `a not in
      plot_ans` guard never skips a kept entry. */
  lemma ClassifySorted(es: Tally, exempt: bool)
    requires SortedDesc(es) && Distinct(es)
    ensures var kept := AtLeast(es, Threshold(exempt));
            var folded := Below(es, Threshold(exempt));
            Classify(es, exempt)
            == Classification(kept, BumpAll(kept, Repeat(OtherAnswer, |folded|)), Answers(folded))
  {
    var th := Threshold(exempt);
    var kept := AtLeast(es, th);
    var folded := Below(es, th);
    SortedSplitsAtThreshold(es, th);
    DistinctPrefix(kept, folded);
    var empty := Classification([], [], []);
    ClassifyAppend(kept, folded, exempt, empty);
    ClassifyAllKept(kept, exempt, empty);
    assert [] + kept == kept;
    ClassifyAllFolded(folded, exempt, Classification(kept, kept, []));
  }

  /** With positive counts, entries below 2 are counted exactly once. */
  lemma {:induction false} TotalOfSingles(t: Tally)
    requires forall i :: 0 <= i < |t| ==> t[i].count < 2
    ensures Total(t) == |t|
    decreases |t|
  {
    if |t| > 0 {
      TotalOfSingles(t[1..]);
    }
  }

  // ---------------------------------------------------------------------
  // Tabulated questions

  /** The classification line 143 computes for a tabulated question. */
  function ClassificationOf(col: Column): Classification
  {
    Classify(Sorted(col), col.question in NotOthers)
  }

  /** Lemma-local facts about the sorted, split tally of a question. */
  lemma SortedSplit(col: Column)
    requires Distinct(col.tally)
    ensures var th := Threshold(col.question in NotOthers);
            var sorted := Sorted(col);
            && SortedDesc(sorted) && Distinct(sorted) && Total(sorted) == Total(col.tally)
            && sorted == AtLeast(sorted, th) + Below(sorted, th)
            && ClassificationOf(col)
               == Classification(AtLeast(sorted, th),
                                 BumpAll(AtLeast(sorted, th), Repeat(OtherAnswer, |Below(sorted, th)|)),
                                 Answers(Below(sorted, th)))
  {
    var th := Threshold(col.question in NotOthers);
    SortByCountDescSpec(col.tally);
    SortAnswers(col.tally);
    SortedSplitsAtThreshold(Sorted(col), th);
    ClassifySorted(Sorted(col), col.question in NotOthers);
  }

  /** The pie-chart slices add up to every answer counted for the question:
      each folded answer adds one unit to "Other" and was counted once. */
  lemma PlotConservesTotal(col: Column)
    requires Distinct(col.tally)
    ensures Total(ClassificationOf(col).plot) == Total(col.tally)
  {
    var th := Threshold(col.question in NotOthers);
    var sorted := Sorted(col);
    SortedSplit(col);
    TotalAppend(AtLeast(sorted, th), Below(sorted, th));
    TotalOfSingles(Below(sorted, th));
  }

  /** The table rows are exactly the entries given more than once (every
      entry for an exempt question), in stable descending-count order. */
  lemma TableRowsAreKeptEntries(col: Column)
    requires Distinct(col.tally)
    ensures ClassificationOf(col).rows
            == SortByCountDesc(AtLeast(col.tally, Threshold(col.question in NotOthers)))
    ensures col.question in NotOthers ==> ClassificationOf(col).rows == Sorted(col)
  {
    SortedSplit(col);
    SortAtLeast(col.tally, Threshold(col.question in NotOthers));
    AtLeastOneIsAll(col.tally);
  }

  /** The folded answers are those given once, in data order; an exempt
      question folds nothing. */
  lemma OthersAreSingleAnswers(col: Column)
    requires Distinct(col.tally)
    ensures col.question in NotOthers ==> ClassificationOf(col).others == []
    ensures col.question !in NotOthers ==>
              ClassificationOf(col).others == Answers(WithCount(col.tally, 1))
  {
    SortedSplit(col);
    AtLeastOneIsAll(Sorted(col));
    BelowTwoIsOnce(Sorted(col));
    SortByCountDescSpec(col.tally);
  }

  /** The "Other" slice holds the count of a literal "Other" answer that
      kept its own row plus one unit per folded answer. */
  lemma OtherSliceMerges(col: Column)
    requires Distinct(col.tally)
    ensures var c := ClassificationOf(col);
            CountOf(c.plot, OtherAnswer) == CountOf(c.rows, OtherAnswer) + |c.others|
  {
    SortedSplit(col);
  }

  /** The printed layout of a tabulated question: heading, chart, table
      header, the rows with their shares of the total, table end, and the
      folded answers under their own heading when there are any. */
  lemma TabulatedLayout(number: nat, col: Column)
    requires |col.tally| > 0 && !FreeTextOnly(col)
    ensures var s := RenderQuestion(number, col).value;
            var c := ClassificationOf(col);
            && Total(col.tally) > 0
            && s[..5] == [Heading(number, col.question), PieChart(c.plot), Html(TableHeader),
                          Html(Rows(c.rows, Total(col.tally))), Html(TableEnd)]
            && (|c.others| == 0 ==> |s| == 5)
            && (|c.others| != 0 ==> s[5..] == [Html(OtherHeading)] + FreeTexts(c.others))
  {
    var c := ClassificationOf(col);
    SortTotal(col.tally);
    SortLength(col.tally);
    var total := Total(col.tally);
    var tail := if |c.others| != 0 then [Html(OtherHeading)] + FreeTexts(c.others) else [];
    var table := [PieChart(c.plot), Html(TableHeader), Html(Rows(c.rows, total)), Html(TableEnd)];
    SectionOf(number, col);
    TableBody(col);
    var s := RenderQuestion(number, col).value;
    Regroup3([Heading(number, col.question)], table, tail);
    var head := [Heading(number, col.question)] + table;
    assert |head| == 5;
    assert (head + tail)[..5] == head;
    assert (head + tail)[5..] == tail;
  }

  /** Unfolds `RenderQuestion` for an answered question; a proof step
      for `TabulatedLayout` and `FreeTextSection`. */
  lemma SectionOf(number: nat, col: Column)
    requires |col.tally| > 0
    ensures RenderQuestion(number, col) == Success([Heading(number, col.question)] + SectionBody(col))
  {
  }

  /** Unfolds `SectionBody` for a tabulated question; a proof step for
      `TabulatedLayout`, which states the layout against the question's total. */
  lemma TableBody(col: Column)
    requires |col.tally| > 0 && !FreeTextOnly(col)
    ensures var c := ClassificationOf(col);
            SectionBody(col)
            == [PieChart(c.plot), Html(TableHeader), Html(Rows(c.rows, Total(Sorted(col)))), Html(TableEnd)]
               + (if |c.others| != 0 then [Html(OtherHeading)] + FreeTexts(c.others) else [])
  {
    SortLength(col.tally);
  }



  // ---------------------------------------------------------------------
  // Free-text questions

  /** A question is free text exactly when every answer was given once. */
  lemma FreeTextOnlyIff(col: Column)
    requires |col.tally| > 0
    ensures FreeTextOnly(col) <==> AllOnce(col.tally)
  {
    var t := col.tally;
    var sorted := Sorted(col);
    SortByCountDescSpec(t);
    if AllOnce(t) {
      forall i | 0 <= i < |sorted|
        ensures sorted[i].count == 1
      {
        assert sorted[i] in multiset(t);
      }
    }
    if AllOnce(sorted) {
      forall i | 0 <= i < |t|
        ensures t[i].count == 1
      {
        assert t[i] in multiset(sorted);
      }
    }
  }

  /** A free-text question prints its heading and then every answer
      formatted on its own, in data order; no chart and no table. */
  lemma FreeTextSection(number: nat, col: Column)
    requires |col.tally| > 0 && FreeTextOnly(col)
    ensures RenderQuestion(number, col).value
            == [Heading(number, col.question)] + FreeTexts(Answers(col.tally))
  {
    FreeTextOnlyIff(col);
    SortSortedIsIdentity(col.tally);
    SectionOf(number, col);
    assert SectionBody(col) == FreeTexts(Answers(Sorted(col)));
  }


  predicate HasChart(fs: seq<Fragment>)
  {
    exists i :: 0 <= i < |fs| && fs[i].PieChart?
  }

  /** A section draws a chart exactly when some answer was given twice. */
  lemma ChartIffRepeatedAnswer(number: nat, col: Column)
    requires |col.tally| > 0
    ensures HasChart(RenderQuestion(number, col).value) <==> !AllOnce(col.tally)
  {
    FreeTextOnlyIff(col);
    if FreeTextOnly(col) {
      FreeTextHasNoChart(number, col);
    } else {
      TabulatedLayout(number, col);
      assert RenderQuestion(number, col).value[1].PieChart?;
    }
  }

  lemma FreeTextHasNoChart(number: nat, col: Column)
    requires |col.tally| > 0 && FreeTextOnly(col)
    ensures !HasChart(RenderQuestion(number, col).value)
  {
    FreeTextSection(number, col);
    HeadThenHtml(Heading(number, col.question), FreeTexts(Answers(col.tally)));
  }

  lemma HeadThenHtml(h: Fragment, f: seq<Fragment>)
    requires !h.PieChart? && forall i :: 0 <= i < |f| ==> f[i].Html?
    ensures !HasChart([h] + f)
  {
    var s := [h] + f;
    forall i | 0 <= i < |s|
      ensures !s[i].PieChart?
    {
      if i > 0 {
        assert s[i] == f[i - 1];
      }
    }
  }


  // ---------------------------------------------------------------------
  // Numbering

  /** The reported questions: every column but the timestamp, in order. */
  function Questions(data: seq<Column>): seq<Column>
  {
    if |data| == 0 then []
    else (if data[0].question == Timestamp then [] else [data[0]]) + Questions(data[1..])
  }

  /** How many questions, from the first, have a non-empty tally. */
  function Answered(qs: seq<Column>): (k: nat)
    ensures k <= |qs|
    ensures forall i :: 0 <= i < k ==> |qs[i].tally| > 0
    ensures k < |qs| ==> |qs[k].tally| == 0
  {
    if |qs| == 0 || |qs[0].tally| == 0 then 0 else 1 + Answered(qs[1..])
  }

  /** Headings `Q<from>.`, `Q<from + 1>.`, ... for the given questions. */
  function Numbered(qs: seq<Column>, from: nat): (r: seq<Fragment>)
    ensures |r| == |qs|
    ensures forall i :: 0 <= i < |qs| ==> r[i] == Heading(from + i, qs[i].question)
  {
    if |qs| == 0 then [] else [Heading(from, qs[0].question)] + Numbered(qs[1..], from + 1)
  }

  /** The headings among the printed fragments, in order. */
  function Headings(fs: seq<Fragment>): seq<Fragment>
  {
    if |fs| == 0 then []
    else (if fs[0].Heading? then [fs[0]] else []) + Headings(fs[1..])
  }

  lemma {:induction false} HeadingsAppend(a: seq<Fragment>, b: seq<Fragment>)
    ensures Headings(a + b) == Headings(a) + Headings(b)
    decreases |a|
  {
    if |a| == 0 {
      assert a + b == b;
    } else {
      assert (a + b)[0] == a[0];
      assert (a + b)[1..] == a[1..] + b;
      HeadingsAppend(a[1..], b);
    }
  }

  lemma {:induction false} NoHeadings(fs: seq<Fragment>)
    requires forall i :: 0 <= i < |fs| ==> !fs[i].Heading?
    ensures Headings(fs) == []
    decreases |fs|
  {
    if |fs| > 0 {
      NoHeadings(fs[1..]);
    }
  }

  /** What the numbering lemma states about the report from `number` on. */
  predicate NumberedFrom(data: seq<Column>, number: nat)
  {
    var qs := Questions(data);
    var k := Answered(qs);
    var r := RenderFrom(data, number);
    && Headings(r.fragments) == Numbered(qs[..k], number)
    && (r.error.None? <==> k == |qs|)
    && (k < |qs| ==> r.error == Some(EmptyMaxError(qs[k].question)))
  }

  /** A section has exactly one heading, its own. */
  lemma SectionHeadings(number: nat, col: Column)
    requires |col.tally| > 0
    ensures Headings(RenderQuestion(number, col).value) == [Heading(number, col.question)]
  {
    var section := RenderQuestion(number, col).value;
    HeadingsAppend([section[0]], section[1..]);
    NoHeadings(section[1..]);
    assert section == [section[0]] + section[1..];
  }

  /** An answered question prints its section and hands the next number on. */
  lemma AnsweredStep(data: seq<Column>, number: nat)
    requires |data| > 0 && data[0].question != Timestamp && |data[0].tally| > 0
    requires NumberedFrom(data[1..], number + 1)
    ensures NumberedFrom(data, number)
  {
    var rest := Questions(data[1..]);
    var k' := Answered(rest);
    AnsweredCons(data, k');
    var section := RenderQuestion(number, data[0]).value;
    var after := RenderFrom(data[1..], number + 1);
    RenderFromAnswered(data, number);
    HeadingsAppend(section, after.fragments);
    SectionHeadings(number, data[0]);
    NumberedCons(data[0], rest[..k'], number);
  }

  /** An answered question leads the reported questions and the answered
      run. */
  lemma AnsweredCons(data: seq<Column>, k: nat)
    requires |data| > 0 && data[0].question != Timestamp && |data[0].tally| > 0
    requires k == Answered(Questions(data[1..]))
    ensures var qs := Questions(data);
            && qs == [data[0]] + Questions(data[1..])
            && Answered(qs) == 1 + k
            && qs[..1 + k] == [data[0]] + Questions(data[1..])[..k]
            && qs[1..] == Questions(data[1..])
  {
    var rest := Questions(data[1..]);
    QuestionsCons(data);
    AnsweredHead(data[0], rest);
    PrefixCons(data[0], rest, k);
  }

  lemma QuestionsCons(data: seq<Column>)
    requires |data| > 0 && data[0].question != Timestamp
    ensures Questions(data) == [data[0]] + Questions(data[1..])
  {
  }

  lemma AnsweredHead(q: Column, rest: seq<Column>)
    requires |q.tally| > 0
    ensures ([q] + rest)[1..] == rest
    ensures Answered([q] + rest) == 1 + Answered(rest)
  {
    assert ([q] + rest)[1..] == rest;
  }

  lemma PrefixCons<T>(x: T, r: seq<T>, k: nat)
    requires k <= |r|
    ensures ([x] + r)[..1 + k] == [x] + r[..k]
  {
  }


  /** Unfolds `RenderFrom` at an answered question; a proof step for
      `RenderFromHeadings`. */
  lemma RenderFromAnswered(data: seq<Column>, number: nat)
    requires |data| > 0 && data[0].question != Timestamp && |data[0].tally| > 0
    ensures var after := RenderFrom(data[1..], number + 1);
            RenderFrom(data, number)
            == Report(RenderQuestion(number, data[0]).value + after.fragments, after.error)
  {
  }


  lemma NumberedCons(q: Column, qs: seq<Column>, number: nat)
    ensures Numbered([q] + qs, number) == [Heading(number, q.question)] + Numbered(qs, number + 1)
  {
    assert ([q] + qs)[1..] == qs;
  }

  /** A question with no answers stops the report before its heading. */
  lemma UnansweredStep(data: seq<Column>, number: nat)
    requires |data| > 0 && data[0].question != Timestamp && |data[0].tally| == 0
    ensures NumberedFrom(data, number)
  {
    var qs := Questions(data);
    assert qs == [data[0]] + Questions(data[1..]);
    assert Answered(qs) == 0;
  }

  /** The timestamp column prints nothing and takes no number. */
  lemma TimestampStep(data: seq<Column>, number: nat)
    requires |data| > 0 && data[0].question == Timestamp
    requires NumberedFrom(data[1..], number)
    ensures NumberedFrom(data, number)
  {
    assert Questions(data) == Questions(data[1..]);
  }

  lemma {:induction false} RenderFromHeadings(data: seq<Column>, number: nat)
    ensures NumberedFrom(data, number)
    decreases |data|
  {
    if |data| == 0 {
    } else if data[0].question == Timestamp {
      RenderFromHeadings(data[1..], number);
      TimestampStep(data, number);
    } else if |data[0].tally| == 0 {
      UnansweredStep(data, number);
    } else {
      RenderFromHeadings(data[1..], number + 1);
      AnsweredStep(data, number);
    }
  }

  /** The report opens with the prologue; its sections are numbered Q1, Q2,
      ... in data order with no gap, the timestamp column taking no number;
      the first question with no answers stops the report with the error
      `max()` raises, after everything before it was printed. */
  lemma GenHtmlNumbering(data: seq<Column>)
    ensures var qs := Questions(data);
            var k := Answered(qs);
            var r := GenHtml(data);
            && |r.fragments| >= 1 && r.fragments[0] == Prologue
            && Headings(r.fragments) == Numbered(qs[..k], 1)
            && (r.error.None? <==> k == |qs|)
            && (k < |qs| ==> r.error == Some(EmptyMaxError(qs[k].question)))
  {
    RenderFromHeadings(data, 1);
    HeadingsAppend([Prologue], RenderFrom(data, 1).fragments);
  }

  /** The timestamp column is never reported. */
  lemma QuestionsSkipTimestamp(data: seq<Column>)
    ensures forall i :: 0 <= i < |Questions(data)| ==> Questions(data)[i].question != Timestamp
    ensures |Questions(data)| <= |data|
  {
    if |data| > 0 {
      QuestionsSkipTimestamp(data[1..]);
    }
  }

  /** A printed heading reads back as its number and question. */
  lemma HeadingRoundTrip(number: nat, question: string)
    ensures ParseHeading(HeadingText(number, question)) == Some(Heading(number, question))
  {
    var d := NatToString(number);
    var body := d + (NumberEnd + question);
    Regroup4(HeadingOpen, d, NumberEnd, question);
    Enclosed(HeadingOpen, body, HeadingClose);
    HeadingBody(number, question);
  }

  /** The text between a known opening and closing. */
  lemma Enclosed(o: string, body: string, c: string)
    ensures var s := o + body + c;
            && |s| >= |o| + |c| && StartsWith(s, o) && EndsWith(s, c)
            && s[|o|..|s| - |c|] == body
  {
    var s := o + body + c;
    assert s[..|o|] == o;
    assert s[|s| - |c|..] == c;
    assert s[|o|..|s| - |c|] == body;
  }

  /** The body of a heading splits at the end of its number. */
  lemma HeadingBody(number: nat, question: string)
    ensures var d := NatToString(number);
            var b := d + (NumberEnd + question);
            && DigitRun(b) == |d| && LeadingNat(b) == Some(number)
            && StartsWith(b[|d|..], NumberEnd) && b[|d| + |NumberEnd|..] == question
  {
    var d := NatToString(number);
    var rest := NumberEnd + question;
    DigitRunOf(d, rest);
    LeadingNatToString(number, rest);
    PrefixOf(d, rest);
    PrefixOf(NumberEnd, question);
    assert (d + rest)[|d| + |NumberEnd|..] == rest[|NumberEnd|..];
  }


  /** Two headings print the same text only when they carry the same number
      and question. */
  lemma HeadingTextInjective(m: nat, p: string, n: nat, q: string)
    ensures HeadingText(m, p) == HeadingText(n, q) ==> m == n && p == q
  {
    HeadingRoundTrip(m, p);
    HeadingRoundTrip(n, q);
  }

  /** No two section headings of a report print the same text, whatever the
      questions are called. */
  lemma HeadingsPrintDistinct(data: seq<Column>, style: string, chart: Tally -> string)
    ensures var hs := Headings(GenHtml(data).fragments);
            forall i, j :: 0 <= i < j < |hs| ==> Text(hs[i], style, chart) != Text(hs[j], style, chart)
  {
    GenHtmlNumbering(data);
    var hs := Headings(GenHtml(data).fragments);
    forall i, j | 0 <= i < j < |hs|
      ensures Text(hs[i], style, chart) != Text(hs[j], style, chart)
    {
      assert hs[i].number == 1 + i && hs[j].number == 1 + j;
      HeadingTextInjective(hs[i].number, hs[i].question, hs[j].number, hs[j].question);
    }
  }

  // ---------------------------------------------------------------------
  // Examples

  lemma FoldingExampleSorted(col: Column, x: string, y: string)
    requires col.tally == [Entry(x, 1), Entry(y, 2)]
    ensures Sorted(col) == [Entry(y, 2), Entry(x, 1)]
  {
    assert SortByCountDesc(col.tally[1..]) == [Entry(y, 2)];
    assert Insert(Entry(x, 1), [Entry(y, 2)]) == [Entry(y, 2)] + Insert(Entry(x, 1), []);
  }

  lemma OneOtherSlice(y: string)
    requires y != OtherAnswer
    ensures BumpAll([Entry(y, 2)], Repeat(OtherAnswer, 1)) == [Entry(y, 2), Entry(OtherAnswer, 1)]
  {
    var vs := Repeat(OtherAnswer, 1);
    assert vs == [OtherAnswer];
    assert Bump([Entry(y, 2)], OtherAnswer) == [Entry(y, 2)] + Bump([], OtherAnswer);
    assert BumpAll([Entry(y, 2)], vs) == BumpAll(Bump([Entry(y, 2)], OtherAnswer), vs[1..]);
  }

  lemma FoldingExampleSplit(x: string, y: string)
    ensures AtLeast([Entry(y, 2), Entry(x, 1)], 2) == [Entry(y, 2)]
    ensures Below([Entry(y, 2), Entry(x, 1)], 2) == [Entry(x, 1)]
    ensures Answers([Entry(x, 1)]) == [x]
  {
    var sorted := [Entry(y, 2), Entry(x, 1)];
    assert sorted[1..] == [Entry(x, 1)];
    assert AtLeast([Entry(x, 1)], 2) == [];
    assert Below([Entry(x, 1)], 2) == [Entry(x, 1)];
  }

  lemma FoldingExampleClassification(col: Column, x: string, y: string)
    requires col.question !in NotOthers && x != y && y != OtherAnswer
    requires col.tally == [Entry(x, 1), Entry(y, 2)]
    ensures ClassificationOf(col)
            == Classification([Entry(y, 2)], [Entry(y, 2), Entry(OtherAnswer, 1)], [x])
  {
    var sorted := [Entry(y, 2), Entry(x, 1)];
    FoldingExampleSorted(col, x, y);
    ClassifySorted(sorted, false);
    FoldingExampleSplit(x, y);
    OneOtherSlice(y);
  }

  /** A question outside the exempt list, answered `x` once and `y` twice:
      `y` leads the table with its share of three answers, `x` is folded
      into the "Other" slice and listed under the "Other" heading. */
  lemma FoldingExample(col: Column, x: string, y: string)
    requires col.question !in NotOthers && x != y && y != OtherAnswer
    requires col.tally == [Entry(x, 1), Entry(y, 2)]
    ensures RenderQuestion(7, col)
            == Success([Heading(7, col.question),
                        PieChart([Entry(y, 2), Entry(OtherAnswer, 1)]),
                        Html(TableHeader),
                        Html(Row(Entry(y, 2), 3)),
                        Html(TableEnd),
                        Html(OtherHeading),
                        Html(FormatText(x))])
  {
    FoldingExampleSorted(col, x, y);
    FoldingExampleClassification(col, x, y);
    assert MaxCount(Sorted(col)) == 2;
    assert Total([Entry(y, 2)]) == 2;
    assert Total(col.tally) == 3;
    TabulatedLayout(7, col);
    var s := RenderQuestion(7, col).value;
    var head := [Heading(7, col.question), PieChart([Entry(y, 2), Entry(OtherAnswer, 1)]),
                 Html(TableHeader), Html(Row(Entry(y, 2), 3)), Html(TableEnd)];
    var tail := [Html(OtherHeading), Html(FormatText(x))];
    assert Rows([Entry(y, 2)], 3) == Row(Entry(y, 2), 3);
    assert s[..5] == head;
    assert FreeTexts([x]) == [Html(FormatText(x))];
    assert s[5..] == tail;
    assert s == head + tail;
    assert RenderQuestion(7, col) == Success(s);
    assert head + tail == [Heading(7, col.question),
                        PieChart([Entry(y, 2), Entry(OtherAnswer, 1)]),
                        Html(TableHeader),
                        Html(Row(Entry(y, 2), 3)),
                        Html(TableEnd),
                        Html(OtherHeading),
                        Html(FormatText(x))];
  }

  /** An exempt question keeps an answer given once in its own row and
      folds nothing. */
  lemma ExemptExample(col: Column, x: string, y: string)
    requires col.question == NotOthers[0] && x != y
    requires col.tally == [Entry(x, 2), Entry(y, 1)]
    ensures var c := ClassificationOf(col);
            c.rows == col.tally && c.plot == col.tally && c.others == []
  {
    assert col.question in NotOthers;
    assert SortByCountDesc(col.tally[1..]) == [Entry(y, 1)];
    assert Sorted(col) == col.tally;
    ClassifySorted(col.tally, true);
    AtLeastOneIsAll(col.tally);
    assert Below(col.tally, 1) == [];
  }
}

=== FILE: results.dfy ===
/** Failure-carrying values shared by the model. The source reports its
    errors as Python exceptions; here each one is an explicit `Error` value. */
module Results {

  datatype Option<+T> = None | Some(value: T)

  datatype Result<+T> = Success(value: T) | Failure(error: Error)

  /** The exceptions the modelled code can raise on its own inputs. */
  datatype Error =
    | ZeroDivisionError                    // `get_percentage` with an all-zero total
    | EmptyMaxError(question: string)      // `max()` over a question with no answers, labelled with that question
}

=== FILE: strings.dfy ===
/** Literal-pattern string operations with the semantics of Python's
    `str.split(sep)`, `sep.join(parts)` and `re.sub(pat, rep, s)` for a
    pattern without metacharacters: one left-to-right scan in which matches
    never overlap and the replacement text is never rescanned. */
module Strings {

  /** True iff `p` is a prefix of `s`. */
  predicate StartsWith(s: string, p: string)
  {
    |p| <= |s| && s[..|p|] == p
  }

  /** True iff `p` occurs in `s` at some position. */
  predicate Contains(s: string, p: string)
    decreases |s|
  {
    StartsWith(s, p) || (|s| > 0 && Contains(s[1..], p))
  }

  /** Python's `s.split(sep)` for a non-empty separator. */
  function Split(s: string, sep: string): (r: seq<string>)
    requires |sep| > 0
    ensures |r| >= 1
    decreases |s|
  {
    if |s| == 0 then [""]
    else if StartsWith(s, sep) then [""] + Split(s[|sep|..], sep)
    else
      var rest := Split(s[1..], sep);
      [[s[0]] + rest[0]] + rest[1..]
  }

  /** Python's `sep.join(parts)`. */
  function Join(parts: seq<string>, sep: string): string
  {
    if |parts| == 0 then ""
    else if |parts| == 1 then parts[0]
    else parts[0] + sep + Join(parts[1..], sep)
  }

  /** Python's `re.sub(pat, rep, s)` for a literal, non-empty pattern. */
  function ReplaceAll(s: string, pat: string, rep: string): string
    requires |pat| > 0
    decreases |s|
  {
    if |s| == 0 then ""
    else if StartsWith(s, pat) then rep + ReplaceAll(s[|pat|..], pat, rep)
    else [s[0]] + ReplaceAll(s[1..], pat, rep)
  }

  /** Python's `re.sub('^' + p, '', s)`: the anchor matches only at index 0,
      so at most one copy of `p` is removed. */
  function StripPrefix(s: string, p: string): (r: string)
    ensures StartsWith(s, p) ==> p + r == s
    ensures !StartsWith(s, p) ==> r == s
  {
    if StartsWith(s, p) then s[|p|..] else s
  }

  lemma JoinCons(c: char, x: string, xs: seq<string>, sep: string)
    ensures Join([[c] + x] + xs, sep) == [c] + Join([x] + xs, sep)
  {
    if |xs| > 0 {
      assert ([[c] + x] + xs)[1..] == xs;
      assert ([x] + xs)[1..] == xs;
    }
  }

  /** Replacing every match is joining the split pieces with the
      replacement, as `s.replace(p, r) == r.join(s.split(p))` in Python. */
  lemma {:induction false} ReplaceAllIsJoinOfSplit(s: string, pat: string, rep: string)
    requires |pat| > 0
    ensures ReplaceAll(s, pat, rep) == Join(Split(s, pat), rep)
    decreases |s|
  {
    if |s| == 0 {
    } else if StartsWith(s, pat) {
      ReplaceAllIsJoinOfSplit(s[|pat|..], pat, rep);
      var rest := Split(s[|pat|..], pat);
      assert ([""] + rest)[1..] == rest;
    } else {
      ReplaceAllIsJoinOfSplit(s[1..], pat, rep);
      var rest := Split(s[1..], pat);
      JoinCons(s[0], rest[0], rest[1..], rep);
      assert [rest[0]] + rest[1..] == rest;
    }
  }

  /** Replacing a pattern by itself changes nothing; a step towards
      `SplitJoinRoundTrip`. */
  lemma {:induction false} ReplaceBySelf(s: string, pat: string)
    requires |pat| > 0
    ensures ReplaceAll(s, pat, pat) == s
    decreases |s|
  {
    if |s| == 0 {
    } else if StartsWith(s, pat) {
      ReplaceBySelf(s[|pat|..], pat);
      assert s == s[..|pat|] + s[|pat|..];
    } else {
      ReplaceBySelf(s[1..], pat);
      assert s == [s[0]] + s[1..];
    }
  }

  /** Splitting loses nothing: joining the pieces with the separator gives
      back the original string. */
  lemma SplitJoinRoundTrip(s: string, sep: string)
    requires |sep| > 0
    ensures Join(Split(s, sep), sep) == s
  {
    ReplaceAllIsJoinOfSplit(s, sep, sep);
    ReplaceBySelf(s, sep);
  }

  /** A string splits into a single piece exactly when the separator does
      not occur in it, and that piece is the string itself. */
  lemma {:induction false} SingletonSplitIff(s: string, sep: string)
    requires |sep| > 0
    ensures |Split(s, sep)| == 1 <==> !Contains(s, sep)
    ensures !Contains(s, sep) ==> Split(s, sep) == [s]
    decreases |s|
  {
    if |s| == 0 {
      assert !StartsWith(s, sep);
    } else if StartsWith(s, sep) {
    } else {
      SingletonSplitIff(s[1..], sep);
      if !Contains(s, sep) {
        assert s == [s[0]] + s[1..];
      }
    }
  }

  /** The first piece of a split is a prefix of the string. */
  lemma {:induction false} SplitHeadIsPrefix(s: string, sep: string)
    requires |sep| > 0
    ensures var h := Split(s, sep)[0]; |h| <= |s| && s[..|h|] == h
    decreases |s|
  {
    if |s| == 0 {
    } else if StartsWith(s, sep) {
    } else {
      SplitHeadIsPrefix(s[1..], sep);
    }
  }

  /** No piece of a split contains the separator. */
  lemma {:induction false} SplitPiecesAvoidSep(s: string, sep: string)
    requires |sep| > 0
    ensures forall k :: 0 <= k < |Split(s, sep)| ==> !Contains(Split(s, sep)[k], sep)
    decreases |s|
  {
    if |s| == 0 {
      assert !StartsWith("", sep);
    } else if StartsWith(s, sep) {
      SplitPiecesAvoidSep(s[|sep|..], sep);
      assert !StartsWith("", sep);
      var rest := Split(s[|sep|..], sep);
      assert Split(s, sep) == [""] + rest;
    } else {
      SplitPiecesAvoidSep(s[1..], sep);
      SplitHeadIsPrefix(s[1..], sep);
      var rest := Split(s[1..], sep);
      var h := [s[0]] + rest[0];
      assert h == s[..|h|];
      assert ([s[0]] + rest[0])[1..] == rest[0];
      assert !Contains(h, sep);
      assert Split(s, sep) == [h] + rest[1..];
    }
  }

  /** No character of `s` is `c`. */
  predicate Avoids(s: string, c: char)
  {
    forall i :: 0 <= i < |s| ==> s[i] != c
  }

  /** A stretch that never holds the pattern's first character is copied
      through unchanged. */
  lemma {:induction false} ReplaceAllSkip(a: string, b: string, pat: string, rep: string)
    requires |pat| > 0 && Avoids(a, pat[0])
    ensures ReplaceAll(a + b, pat, rep) == a + ReplaceAll(b, pat, rep)
    decreases |a|
  {
    if |a| == 0 {
      assert a + b == b;
    } else {
      var a1 := a[1..];
      assert !StartsWith(a + b, pat) by {
        assert (a + b)[0] == a[0];
      }
      assert (a + b)[1..] == a1 + b;
      ReplaceAllSkip(a1, b, pat, rep);
      assert [a[0]] + a1 == a;
      Regroup3([a[0]], a1, ReplaceAll(b, pat, rep));
    }
  }


  /** A string without any match is left unchanged. */
  lemma {:induction false} ReplaceAllAbsent(s: string, pat: string, rep: string)
    requires |pat| > 0 && !Contains(s, pat)
    ensures ReplaceAll(s, pat, rep) == s
    decreases |s|
  {
    if |s| > 0 {
      ReplaceAllAbsent(s[1..], pat, rep);
      assert s == [s[0]] + s[1..];
    }
  }

  /** A string shorter than the pattern cannot contain it. */
  lemma {:induction false} ShortNotContains(s: string, p: string)
    requires |s| < |p|
    ensures !Contains(s, p)
    decreases |s|
  {
    if |s| > 0 {
      ShortNotContains(s[1..], p);
    }
  }

  /** With a two-character separator of two different characters, a
      first piece that does not contain the separator splits off whole. */
  lemma {:induction false} SplitAtSeparator(a: string, sep: string, b: string)
    requires |sep| == 2 && sep[0] != sep[1]
    requires !Contains(a, sep)
    ensures Split(a + sep + b, sep) == [a] + Split(b, sep)
    decreases |a|
  {
    var s := a + sep + b;
    if |a| == 0 {
      assert s == sep + b;
      assert StartsWith(s, sep);
      assert s[|sep|..] == b;
    } else {
      if |a| == 1 {
        assert s[1] == sep[0];
      } else {
        assert s[..2] == a[..2];
        assert !StartsWith(a, sep);
      }
      assert !StartsWith(s, sep);
      SplitAtSeparator(a[1..], sep, b);
      assert s[1..] == a[1..] + sep + b;
      assert [a[0]] + a[1..] == a;
    }
  }

  /** A string whose first character differs from the pattern's does not
      start with it. */
  lemma NotStartsWith(s: string, p: string)
    requires |p| > 0 && (|s| == 0 || s[0] != p[0])
    ensures !StartsWith(s, p)
  {
  }

  /** A string that lacks one of the pattern's characters cannot contain it. */
  lemma {:induction false} AvoidsNotContains(s: string, p: string, k: nat)
    requires k < |p| && Avoids(s, p[k])
    ensures !Contains(s, p)
    decreases |s|
  {
    if |s| > 0 {
      AvoidsNotContains(s[1..], p, k);
    }
  }

  /** True iff `p` is a suffix of `s`. */
  predicate EndsWith(s: string, p: string)
  {
    |p| <= |s| && s[|s| - |p|..] == p
  }

  /** A match never straddles the end of `x` into `t`: no proper suffix of
      the pattern begins `t`, and `t` itself holds no match. */
  predicate CleanTail(t: string, pat: string)
  {
    && !Contains(t, pat)
    && forall m :: 0 < m < |pat| ==> !StartsWith(t, pat[m..])
  }

  /** Text followed by a clean tail is rewritten on its own, and the tail is
      copied through. */
  lemma {:induction false} ReplaceAllCleanTail(x: string, t: string, pat: string, rep: string)
    requires |pat| > 0 && CleanTail(t, pat)
    ensures ReplaceAll(x + t, pat, rep) == ReplaceAll(x, pat, rep) + t
    decreases |x|
  {
    var s := x + t;
    if |x| == 0 {
      assert s == t;
      ReplaceAllAbsent(t, pat, rep);
    } else if StartsWith(s, pat) {
      Straddle(x, t, pat);
      assert x[..|pat|] == pat;
      assert s[|pat|..] == x[|pat|..] + t;
      ReplaceAllCleanTail(x[|pat|..], t, pat, rep);
    } else {
      PrefixExtends(x, t, pat);
      assert s[1..] == x[1..] + t;
      ReplaceAllCleanTail(x[1..], t, pat, rep);
    }
  }

  /** A match at the start of `x + t` that is longer than `x` continues
      into `t`. */
  lemma Straddle(x: string, t: string, pat: string)
    requires 0 < |x| && StartsWith(x + t, pat)
    ensures |pat| > |x| ==> StartsWith(t, pat[|x|..])
  {
    if |pat| > |x| {
      assert t[..|pat| - |x|] == (x + t)[|x|..|pat|];
    }
  }

  lemma PrefixExtends(x: string, t: string, p: string)
    ensures StartsWith(x, p) ==> StartsWith(x + t, p)
  {
    if StartsWith(x, p) {
      assert (x + t)[..|p|] == x[..|p|];
    }
  }

  lemma Regroup3<T>(a: seq<T>, b: seq<T>, c: seq<T>)
    ensures a + b + c == a + (b + c)
  {
  }

  lemma Regroup4<T>(a: seq<T>, b: seq<T>, c: seq<T>, d: seq<T>)
    ensures a + b + c + d == a + (b + (c + d))
  {
    Regroup3(a, b, c);
    Regroup3(a + b, c, d);
    Regroup3(a, b, c + d);
  }

  lemma PrefixOf(a: string, b: string)
    ensures StartsWith(a + b, a) && (a + b)[|a|..] == b
  {
    assert (a + b)[..|a|] == a;
  }
}

=== FILE: tallies.dfy ===
/** Per-question answer tallies: the ordered `{answer: count}` dictionaries
    that `value_counts().to_dict()` produces and that the re-tally rebuilds.
    A Python dict keeps insertion order, so a tally is a sequence of entries
    whose answers are pairwise distinct. */
module Tallies {

  /** Counts are always positive: `value_counts` reports only answers that
      occur, and the re-tally starts every new answer at 1. */
  type Count = n: nat | n >= 1 witness 1

  datatype Entry = Entry(answer: string, count: Count)

  type Tally = seq<Entry>

  /** One column of the survey: the question label and its tally. */
  datatype Column = Column(question: string, tally: Tally)

  /** The dict's keys, in order. */
  function Answers(t: Tally): (r: seq<string>)
    ensures |r| == |t|
    ensures forall i :: 0 <= i < |t| ==> r[i] == t[i].answer
  {
    if |t| == 0 then [] else [t[0].answer] + Answers(t[1..])
  }

  /** Dict keys are unique. */
  predicate Distinct(t: Tally)
  {
    forall i, j :: 0 <= i < j < |t| ==> t[i].answer != t[j].answer
  }

  /** The count stored under `a`, or 0 when `a` is not a key. */
  function CountOf(t: Tally, a: string): nat
  {
    if |t| == 0 then 0
    else (if t[0].answer == a then t[0].count else 0) + CountOf(t[1..], a)
  }

  /** `sum(d.values())`; every entry holds at least one unit. */
  function Total(t: Tally): (s: nat)
    ensures s >= |t|
  {
    if |t| == 0 then 0 else t[0].count + Total(t[1..])
  }

  lemma {:induction false} TotalAppend(a: Tally, b: Tally)
    ensures Total(a + b) == Total(a) + Total(b)
    decreases |a|
  {
    if |a| == 0 {
      assert a + b == b;
    } else {
      TotalAppend(a[1..], b);
      assert (a + b)[1..] == a[1..] + b;
    }
  }

  lemma {:induction false} AnswersAppend(a: Tally, b: Tally)
    ensures Answers(a + b) == Answers(a) + Answers(b)
  {
  }

  /** In a tally with unique keys, `CountOf` reads the entry of that key. */
  lemma {:induction false} CountOfDistinct(t: Tally, i: nat)
    requires Distinct(t) && i < |t|
    ensures CountOf(t, t[i].answer) == t[i].count
    decreases |t|
  {
    if i > 0 {
      CountOfDistinct(t[1..], i - 1);
    } else {
      CountOfAbsent(t[1..], t[0].answer);
    }
  }

  lemma {:induction false} CountOfAbsent(t: Tally, a: string)
    requires a !in Answers(t)
    ensures CountOf(t, a) == 0
    decreases |t|
  {
    if |t| > 0 {
      assert Answers(t)[1..] == Answers(t[1..]);
      CountOfAbsent(t[1..], a);
    }
  }

  /** `d[v] = d[v] + 1 if v in d else 1`: a new key goes to the end, an
      existing key keeps its place. */
  function Bump(t: Tally, v: string): (r: Tally)
    ensures forall a :: CountOf(r, a) == CountOf(t, a) + (if a == v then 1 else 0)
    ensures Total(r) == Total(t) + 1
    ensures |r| >= |t| && forall i :: 0 <= i < |t| ==> r[i].answer == t[i].answer
    decreases |t|
  {
    if |t| == 0 then [Entry(v, 1)]
    else if t[0].answer == v then [Entry(v, t[0].count + 1)] + t[1..]
    else [t[0]] + Bump(t[1..], v)
  }

  /** Bumping adds `v` to the keys and nothing else. */
  lemma {:induction false} BumpKeys(t: Tally, v: string)
    ensures forall a :: a in Answers(Bump(t, v)) <==> a in Answers(t) || a == v
    ensures |Bump(t, v)| == if v in Answers(t) then |t| else |t| + 1
    decreases |t|
  {
    if |t| > 0 {
      assert Answers(t) == [t[0].answer] + Answers(t[1..]);
      if t[0].answer != v {
        BumpKeys(t[1..], v);
        assert Answers(Bump(t, v)) == [t[0].answer] + Answers(Bump(t[1..], v));
      }
    }
  }

  /** Prepending an entry whose key is new keeps keys unique. */
  lemma ConsDistinct(e: Entry, t: Tally)
    requires Distinct(t) && e.answer !in Answers(t)
    ensures Distinct([e] + t)
  {
    var r := [e] + t;
    forall i, j | 0 <= i < j < |r|
      ensures r[i].answer != r[j].answer
    {
      if i == 0 {
        assert r[j].answer == Answers(t)[j - 1];
      } else {
        assert r[i] == t[i - 1] && r[j] == t[j - 1];
      }
    }
  }

  /** Bumping keeps keys unique. */
  lemma {:induction false} BumpDistinct(t: Tally, v: string)
    requires Distinct(t)
    ensures Distinct(Bump(t, v))
    decreases |t|
  {
    if |t| > 0 {
      if t[0].answer == v {
        var r := Bump(t, v);
        forall i, j | 0 <= i < j < |r|
          ensures r[i].answer != r[j].answer
        {
          assert r[i].answer == t[i].answer && r[j].answer == t[j].answer;
        }
      } else {
        assert Distinct(t[1..]);
        BumpDistinct(t[1..], v);
        BumpKeys(t[1..], v);
        assert t[0].answer !in Answers(t[1..]);
        ConsDistinct(t[0], Bump(t[1..], v));
      }
    }
  }

  /** Bumps every value of `vs` in order: the histogram loop. */
  function BumpAll(t: Tally, vs: seq<string>): (r: Tally)
    ensures forall a :: CountOf(r, a) == CountOf(t, a) + multiset(vs)[a]
    ensures forall a :: a in Answers(r) <==> a in Answers(t) || a in vs
    ensures Total(r) == Total(t) + |vs|
    decreases |vs|
  {
    if |vs| == 0 then t
    else
      assert vs == [vs[0]] + vs[1..];
      BumpKeys(t, vs[0]);
      BumpAll(Bump(t, vs[0]), vs[1..])
  }

  /** The histogram loop keeps keys unique. */
  lemma {:induction false} BumpAllDistinct(t: Tally, vs: seq<string>)
    requires Distinct(t)
    ensures Distinct(BumpAll(t, vs))
    decreases |vs|
  {
    if |vs| > 0 {
      BumpDistinct(t, vs[0]);
      BumpAllDistinct(Bump(t, vs[0]), vs[1..]);
    }
  }

  /** Bumping a longer list is bumping the shorter one and then the rest. */
  lemma {:induction false} BumpAllAppend(t: Tally, xs: seq<string>, ys: seq<string>)
    ensures BumpAll(t, xs + ys) == BumpAll(BumpAll(t, xs), ys)
    decreases |xs|
  {
    if |xs| == 0 {
      assert xs + ys == ys;
    } else {
      assert (xs + ys)[0] == xs[0];
      assert (xs + ys)[1..] == xs[1..] + ys;
      BumpAllAppend(Bump(t, xs[0]), xs[1..], ys);
    }
  }

  /** `max(d.values())` of a non-empty dict: the largest count, reached by
      some entry. Python raises `ValueError` on an empty dict; callers model
      that case. */
  function MaxCount(t: Tally): (m: Count)
    requires |t| > 0
    ensures forall i :: 0 <= i < |t| ==> t[i].count <= m
    ensures exists i :: 0 <= i < |t| && t[i].count == m
    decreases |t|
  {
    if |t| == 1 then t[0].count
    else
      var m := MaxCount(t[1..]);
      assert forall i :: 1 <= i < |t| ==> t[i] == t[1..][i - 1];
      if t[0].count >= m then t[0].count else m
  }

  /** Every entry was counted once. */
  predicate AllOnce(t: Tally)
  {
    forall i :: 0 <= i < |t| ==> t[i].count == 1
  }

  /** With positive counts, the largest count is 1 exactly when every
      answer was given once. */
  lemma MaxOneIffAllOnce(t: Tally)
    requires |t| > 0
    ensures MaxCount(t) == 1 <==> AllOnce(t)
  {
  }
}
